=== FILE: README.md ===
# CSS class counter: a Dafny model of the tallying core

The counter finds the CSS class names a web project uses and counts each one. It scans
three kinds of input:

- **Markup.** It reads `class` attributes, blanking out `<% … %>` template code and
  dropping noise tokens. A `script` element that is a client-side template is re-scanned,
  and its counts are folded into the outer tally.
- **View-model scripts.** It reads `className: '…'` properties.
- **Stylesheets.** It reads `.class` selectors.

All three produce name → count dictionaries. These are combined by `MergeInto` and
`OuterJoin` and ordered by `Sort`.

This project models that core as pure functions over immutable data. It proves the counting
and shape properties the code promises. Modules:

| module | file | models |
|---|---|---|
| `DictionaryExtensions` | dictionary.dfy | `Pair`, `AppendCount`, `MergeInto`, `OuterJoin`, both `Sort` overloads, the tally loops |
| `HtmlExtensions` | html.dfy | the node walk, `IsNoise`, `StripERB`, `IsScriptTemplate`, the `class` attribute split, template replay |
| `JSExtensions` | js.dfy | `ClassNames(lines)`: the `className:` pattern as a deterministic matcher, trim, split, tally |
| `StylesheetExtractor` | css.dfy | the token pipeline of `ClassNamesFromCss` |
| `Strings` | strings.dfy | `Split` with empty entries removed, `Trim`, `TrimEnd`, `ToLower`, ordinal order |
| `LazyRegex` | lazyregex.dfy | `Regex.Replace` with a lazy `open.+?close` pattern (`<%.+?%>` and `\[.+?\]`) |
| `Int32Parse` | int32parse.dfy | `int.TryParse` as `IsNoise` uses it |
| `Scenarios` | scenarios.dfy | worked examples, each generalised over arbitrary names |
| `Wrappers` | wrappers.dfy | `Option` |

Modelling choices:

- **Dictionaries.** A dictionary is an insertion-ordered list of `Entry(key, value)` with
  distinct keys. A .NET `Dictionary` with no removals enumerates in insertion order, so
  this makes the template replay deterministic.
  - Lookups go through `Find` and `TryGet`. `TryGet` is `TryGetValue` with its default of 0.
  - The indexer assignment is `Set`.
- **Sort order.** Keys are ordered by ordinal character order (`Strings.Less`).
- **Parser output as input.** The markup parser and the stylesheet tokenizer are foreign
  libraries, so their output is the model's input.
  - Markup arrives as a `Node` tree. An element carries `inner`, the tree its inner markup
    parses to. This makes the template recursion structural.
  - A stylesheet arrives as a sequence of categorised tokens.
- **Regular expressions.** The three patterns are modelled by hand-written matchers.
  `<%.+?%>` and `\[.+?\]` share one lazy matcher, `LazyRegex`; the `className:` pattern has
  its own in `JSExtensions`. Each matcher is proved equal to a reference description of
  its pattern:
  - `LazyRegex.MatchAtIsLazyMatch` for the lazy replacements;
  - `JSExtensions.MatchAtIsRegexMatch` for the `className:` pattern.

Quirks of the C# code that the model keeps:

- Class attributes and script captures are split on the space character only, not on all
  white space. A tab or a line feed can stay inside a token.
- `TrimEnd(',')` removes every trailing comma, not just one.
- A document node yields the text `HTML document not allowed: '…'` as a class name. It does
  not raise an error.
- The stylesheet pipeline can yield the empty name. `.[x]` gives `""`
  (`Scenarios.BracketOnlySelector`).
- The `type` value is compared case-sensitively with `text/javascript`. Only the element
  and attribute names are lower-cased.

## Model

| member | source | states |
|---|---|---|
| DictionaryExtensions.Find | CssClassCounter/Program.cs:126 | a lookup succeeds exactly when the key is present, and then returns the value stored with it |
| DictionaryExtensions.TryGet | CssClassCounter/Program.cs:126 | `TryGetValue` with its default: 0 for a missing key, and otherwise the value stored with the key |
| DictionaryExtensions.Set | CssClassCounter/Program.cs:127 | the indexer assignment: the key now maps to the new value; every other key keeps its lookup; keys stay distinct; an existing key keeps its position, and a new key is appended |
| DictionaryExtensions.AppendCount | CssClassCounter/Program.cs:124-128 | the key's count becomes its old count (0 when absent) plus one; every other key's count is unchanged; the key set gains exactly the key |
| DictionaryExtensions.MergeInto | CssClassCounter/Program.cs:130-137 | the result is still a dictionary, and its key set is the union of both key sets |
| DictionaryExtensions.MergeIntoCounts | CssClassCounter/Program.cs:130-137 | every key's count is its destination count plus its source count (0 for a missing side) |
| DictionaryExtensions.MergeTwiceAddsTwice | CssClassCounter/Program.cs:130-137 | merging is not idempotent: merging the same source twice adds its counts twice |
| DictionaryExtensions.JoinLeft | CssClassCounter/Program.cs:141-146 | the first loop: each left key is paired with its left count and its right count (0 if absent); other keys are untouched |
| DictionaryExtensions.JoinRight | CssClassCounter/Program.cs:148-154 | the second loop adds exactly the right keys to the joined key set |
| DictionaryExtensions.JoinRightFind | CssClassCounter/Program.cs:148-154 | keys already joined keep their pair; each right-only key gets the pair (0, right count) |
| DictionaryExtensions.OuterJoin | CssClassCounter/Program.cs:139-157 | the key set is exactly the union of both key sets |
| DictionaryExtensions.OuterJoinFind | CssClassCounter/Program.cs:139-157 | a key of either side maps to (left count, right count), with 0 for the side that lacks it; any other key is absent |
| DictionaryExtensions.Sort | CssClassCounter/Program.cs:110-122 | the result is a permutation of the input entries (same multiset), with the same keys, in strictly ascending key order |
| DictionaryExtensions.SortKeepsLookups | CssClassCounter/Program.cs:110-122 | after sorting, every key still finds exactly the value it had before |
| DictionaryExtensions.AppendAll | CssClassCounter/Program.cs:167-170 | appending each name in turn keeps the keys distinct, and the key set gains exactly those names |
| DictionaryExtensions.AppendAllCounts | CssClassCounter/Program.cs:167-170 | every key's count grows by the number of times it occurs among the names |
| DictionaryExtensions.Tally | CssClassCounter/Program.cs:167-172 | a fresh counter holds, for every key, its number of occurrences among the names, and no other keys |
| DictionaryExtensions.TallyPositive | CssClassCounter/Program.cs:167-172 | every stored count is at least 1 |
| DictionaryExtensions.AppendAllTotal | CssClassCounter/Program.cs:167-170 | each appended name raises the sum of all counts by exactly one |
| Strings.LessTotal | CssClassCounter/Program.cs:113 | of two different keys, exactly one is ordered first, so the sorted order is determined |
| Strings.LessTransitive | CssClassCounter/Program.cs:120 | the key order is transitive |
| Strings.Split | CssClassCounter/Program.cs:233 | `Split(' ', RemoveEmptyEntries)`: no piece is empty and no piece contains the separator |
| Strings.SplitKeepsEverythingButSeparators | CssClassCounter/Program.cs:233 | the pieces, concatenated, are the input with every separator removed: nothing else is lost |
| Strings.SplitJoin | CssClassCounter/Program.cs:260 | splitting non-empty separator-free tokens joined by the separator gives them back |
| Strings.Trim | CssClassCounter/Program.cs:259 | the result is the contiguous stretch of the input that follows its leading white-space run (`WhiteSpacePrefix`), and everything after it is white space; it neither starts nor ends with white space, and is the input itself when the input's ends are not white space |
| Strings.TrimEnd | CssClassCounter/Program.cs:90 | the result is a prefix of the input that does not end with the character, and only that character was removed |
| Strings.ToLowerAscii | CssClassCounter/Program.cs:241 | same length; upper-case ASCII letters are lowered and every other character is kept |
| LazyRegex.MatchAtIsLazyMatch | CssClassCounter/Program.cs:238 | the matcher finds a match of `open.+?close` ending exactly where the lazy pattern's match ends, and finds none where the pattern has none |
| LazyRegex.MatchAt | CssClassCounter/Program.cs:238 | a match starting at a position covers at least the two delimiters and one body character, and ends within the text (`MatchAtIsLazyMatch` pins the end exactly) |
| LazyRegex.Replace | CssClassCounter/Program.cs:238 | `Regex.Replace` with a lazy delimited pattern: a replacement no longer than the shortest match never lengthens the text, and empty text stays empty; `ReplaceMatch` and `ReplaceNoMatch` state the scan step by step |
| LazyRegex.ReplaceChars | CssClassCounter/Program.cs:238 | every character of the result comes from the input or from the replacement |
| LazyRegex.ReplaceMatch | CssClassCounter/Program.cs:238 | where a lazy match starts the text, the match becomes the replacement and the scan resumes right after the match |
| LazyRegex.ReplaceNoMatch | CssClassCounter/Program.cs:238 | where no lazy match starts the text, its first character is kept and the scan moves on by one |
| LazyRegex.ReplaceKeepsPrefix | CssClassCounter/Program.cs:238 | text in which the opening delimiter never starts is copied unchanged in front of the replacement of what follows |
| LazyRegex.ReplaceGroup | CssClassCounter/Program.cs:238 | one delimited group (non-empty body, no line feed, no closing delimiter after its first character) following delimiter-free text becomes the replacement; the rest is replaced on its own |
| LazyRegex.ReplaceWithoutOpen | CssClassCounter/Program.cs:88 | text that never contains the opening delimiter is left unchanged |
| Int32Parse.TryParse | CssClassCounter/Program.cs:225 | a successful parse yields a value within the 32-bit range |
| Int32Parse.ParseShow | CssClassCounter/Program.cs:225 | every 32-bit integer printed in decimal parses back to itself; any integer outside that range, printed the same way, is rejected |
| HtmlExtensions.LetterStartIsNotNoise | CssClassCounter/Program.cs:216-229 | a token starting with an ASCII letter is never noise |
| HtmlExtensions.PrintedNumberNoise | CssClassCounter/Program.cs:216-229 | a printed non-negative integer is noise exactly when it fits in 32 bits |
| HtmlExtensions.StripErb | CssClassCounter/Program.cs:236-238 | every character of the result is from the value or a space, and a value without `<` is unchanged |
| HtmlExtensions.StripOneErbGroup | CssClassCounter/Program.cs:236-238 | a one-line `<% … %>` group after `<`-free text becomes a single space, and the rest is stripped on its own |
| HtmlExtensions.AttributeClassNames | CssClassCounter/Program.cs:231-234 | only an attribute named exactly `class` yields tokens; they are non-empty and space-free; concatenated, they are the stripped value with its spaces removed |
| HtmlExtensions.IsNoise | CssClassCounter/Program.cs:216-229 | the empty token is never noise (the four operators, 32-bit integers, and `(`/`@` prefixes all need a character); `LetterStartIsNotNoise` and `PrintedNumberNoise` give the two sides |
| HtmlExtensions.WithoutNoise | CssClassCounter/Program.cs:205 | the kept tokens are exactly the non-noise ones |
| HtmlExtensions.WithoutNoiseCounts | CssClassCounter/Program.cs:205 | each non-noise token is kept exactly as often as it occurs, and noise is dropped entirely |
| HtmlExtensions.WithoutNoiseAppend | CssClassCounter/Program.cs:203-209 | filtering a concatenation is concatenating the filtered parts, so token order is kept |
| HtmlExtensions.AttributesClassNames | CssClassCounter/Program.cs:203-209 | every name yielded is non-empty, space-free and not noise; an element with no `class` attribute yields none |
| HtmlExtensions.AttributesClassNamesFilter | CssClassCounter/Program.cs:203-209 | an element's names are the split tokens of all its `class` attributes, in attribute order, with noise filtered out |
| HtmlExtensions.AttributesClassNamesCounts | CssClassCounter/Program.cs:203-209 | a non-noise name is yielded once per occurrence among those tokens; a noise name is never yielded |
| HtmlExtensions.TypeAttribute | CssClassCounter/Program.cs:243-245 | absent exactly when no attribute's lower-cased name is `type`; otherwise the value of the first such attribute |
| HtmlExtensions.Repeat | CssClassCounter/Program.cs:200-201 | the inner `for` loop yields the key exactly `count` times, and nothing for a count of zero or less |
| HtmlExtensions.RepeatOccurrences | CssClassCounter/Program.cs:200-201 | the repetition holds `count` occurrences of its key and none of any other name |
| HtmlExtensions.ReplayCounts | CssClassCounter/Program.cs:199-201 | replaying a counter emits each key exactly its count times, and as many names in all as the counts sum to |
| HtmlExtensions.TemplateReplaysInnerTally | CssClassCounter/Program.cs:198-201 | a script template yields each name as often as the inner markup's tally counts it, plus its own class names; its output grows by the inner total |
| HtmlExtensions.IsScriptTemplate | CssClassCounter/Program.cs:240-245 | a template is an element whose first `type` attribute (by lower-cased name) has a value other than `text/javascript` |
| HtmlExtensions.Replay | CssClassCounter/Program.cs:199-201 | every name replayed is a key of the counter (`ReplayCounts` gives how often) |
| HtmlExtensions.NodeClassNames | CssClassCounter/Program.cs:186-214 | every name a node yields is non-empty and never the debugging token; text and comment nodes yield nothing; an element that is not a template yields exactly its attributes' class names |
| HtmlExtensions.WalkNode | CssClassCounter/Program.cs:168-169 | every name yielded by a node and its descendants is non-empty and never the debugging token |
| HtmlExtensions.Walk | CssClassCounter/Program.cs:168-169 | every name yielded by the whole forest is non-empty and never the debugging token; `WalkInDocumentOrder` states the order |
| HtmlExtensions.WalkInDocumentOrder | CssClassCounter/Program.cs:168-169 | for every forest the walk can finish, templates and document nodes included, the walk is the names of each node of `Descendants()` in document order, each node's own names before those of its descendants |
| HtmlExtensions.ClassNamesOfTree | CssClassCounter/Program.cs:162-172 | the result is a dictionary; each name's count is its number of occurrences in the walk; every stored count is at least 1 and every key a yieldable name |
| HtmlExtensions.PlainScriptYieldsOwnClassNames | CssClassCounter/Program.cs:240-245 | a `script` element with no `type`, or with type `text/javascript`, yields only its own class names |
| HtmlExtensions.PlainWalk | CssClassCounter/Program.cs:168-169 | without templates or document nodes, the walk yields the class names of the element descendants, in document order |
| HtmlExtensions.PlainTreeTally | CssClassCounter/Program.cs:162-172 | without templates or document nodes, each count is the number of non-noise class tokens equal to the key across all element descendants, and every count is at least 1 |
| JSExtensions.MatchAt | CssClassCounter/Program.cs:252 | a match reported at a position is a match of the `className:` pattern there, with the quotes where it says |
| JSExtensions.MatchAtIsRegexMatch | CssClassCounter/Program.cs:252 | the matcher finds the quotes at `e` and `k` exactly when the pattern matches there |
| JSExtensions.LeftmostMatch | CssClassCounter/Program.cs:257 | the match found is the leftmost one; none is reported only when no position matches |
| JSExtensions.FirstMatchCapture | CssClassCounter/Program.cs:252 | a line opening with `className:`, white space, a quote, capture characters and a quote captures those characters; the two quotes may differ and the capture may be empty |
| JSExtensions.Capture | CssClassCounter/Program.cs:257-259 | a line contributes at most one capture, made only of characters the pattern's class allows |
| JSExtensions.LineClassNames | CssClassCounter/Program.cs:259-260 | the tokens are non-empty and space-free, made of allowed characters, and concatenate to the trimmed capture without its spaces; a line without a match yields none |
| JSExtensions.ScriptNames | CssClassCounter/Program.cs:256-260 | the names of all lines, each non-empty and space-free; when no line has a match, nothing is yielded |
| JSExtensions.ScriptNamesAppend | CssClassCounter/Program.cs:256-260 | the names of a sequence of lines are the names of its parts, one after the other, so each line's names keep their place |
| JSExtensions.ScriptNamesOne | CssClassCounter/Program.cs:256-260 | a single line contributes exactly its own `LineClassNames` |
| JSExtensions.ScriptClassNames | CssClassCounter/Program.cs:250-265 | the tally counts each name as often as the lines' tokens contain it |
| JSExtensions.NoMatchNoNames | CssClassCounter/Program.cs:258 | a line on which the pattern matches nowhere contributes nothing |
| StylesheetExtractor.CutPseudoClass | CssClassCounter/Program.cs:87 | the result is the longest prefix without `:`; the input continues with `:` wherever it was cut |
| StylesheetExtractor.RemoveAttributeSelectors | CssClassCounter/Program.cs:88 | removing attribute selectors only deletes characters, and a piece without `[` is unchanged |
| StylesheetExtractor.RemoveOneAttributeSelector | CssClassCounter/Program.cs:88 | a one-line `[…]` group after `[`-free text is dropped whole, and the rest is cleaned on its own |
| StylesheetExtractor.CleanName | CssClassCounter/Program.cs:87-90 | a cleaned piece holds only characters of the piece, no `:`, and does not end with `,`; without `[` it is the text before the first `:` with trailing commas removed, so a prefix of the piece, and a piece without `[`, `:` or `,` is kept whole |
| StylesheetExtractor.IsClassSelector | CssClassCounter/Program.cs:85 | a token is kept exactly when it is a selector-or-property token whose first character is `.` |
| StylesheetExtractor.TokenNames | CssClassCounter/Program.cs:85-90 | only a selector token starting with `.` yields names; it yields one name per non-empty dot piece, in order, each that piece cleaned (possibly empty); no name contains `.` or `:` or ends with `,` |
| StylesheetExtractor.CssNames | CssClassCounter/Program.cs:85-90 | no name contains `.` or `:` or ends with `,`; with no class selector among the tokens, nothing is yielded |
| StylesheetExtractor.CssNamesAppend | CssClassCounter/Program.cs:85-90 | the names of a token sequence are the names of its parts, one after the other, so each token's names keep their place |
| StylesheetExtractor.CssNamesOne | CssClassCounter/Program.cs:85-90 | a single token contributes exactly its own `TokenNames` |
| StylesheetExtractor.ClassNamesFromCss | CssClassCounter/Program.cs:84-92 | the result is strictly sorted by key; its keys are exactly the names yielded; each count is the name's number of occurrences |
| Scenarios.CompoundSelector | CssClassCounter/Program.cs:86-90 | `.a.b:pseudo`, as in `.btn.active:hover[disabled]`, yields `a` and `b` |
| Scenarios.CompoundSelectorTally | CssClassCounter/Program.cs:84-92 | and its tally is `{a: 1, b: 1}` |
| Scenarios.BracketOnlySelector | CssClassCounter/Program.cs:86-90 | `.[x]` yields the empty name |
| Scenarios.ScriptLineWithTwoNames | CssClassCounter/Program.cs:252-260 | `className: 'a b'` yields `a` and `b` |
| Scenarios.ScriptLineTally | CssClassCounter/Program.cs:250-265 | and tallies them as `{a: 1, b: 1}`: exactly the keys `a` and `b`, each counted once |
| Scenarios.ScriptLineWithoutKey | CssClassCounter/Program.cs:252-258 | a line that never contains `className:` contributes nothing |
| Scenarios.ClassAttribute | CssClassCounter/Program.cs:231-238 | a `class` value of space-separated tokens without template code yields exactly those tokens |
| Scenarios.ErbInClassAttribute | CssClassCounter/Program.cs:231-238 | `class="x <%= y %> z"` yields exactly `x` and `z`: the template code is blanked out |
| Scenarios.NestedElements | CssClassCounter/Program.cs:162-172 | `<div class="x y"><div class="x"></div></div>` tallies `{x: 2, y: 1}` |
| Scenarios.NoiseTokensAreDropped | CssClassCounter/Program.cs:203-229 | `class="x != 3 @z y"`, for any 32-bit number, yields only `x` and `y` |
| Scenarios.TemplateBlock | CssClassCounter/Program.cs:198-201 | `<script type="text/template"><div class="x"></div></script>` tallies `{x: 1}` |
| Scenarios.JoinExample | CssClassCounter/Program.cs:139-157 | `{a: p, b: q}` joined with `{b: r, c: s}` is `{a: (p, 0), b: (q, r), c: (0, s)}` |
| Scenarios.AppendCountRepeated | CssClassCounter/Program.cs:124-128 | incrementing one key `n` times from empty leaves a count of `n` |

## Left out

- File reading, CSV writing and the drivers (`Main`, `Test`, `Jobcentre`, `WriteCsv`) are
  left out. They are I/O with fixed paths, and the extractors' inputs become parameters.
- The markup parser (`LoadHtml`, `Descendants`, `InnerHtml`) is a foreign library.
  - Its output is the `Node` input, with each attribute name as the parser reports it.
  - An element's `inner` field stands for re-parsing its inner markup.
- The stylesheet tokenizer (`Parser.ParseCSS`) is a foreign library. Its token sequence is
  the input.
- `Cleans` is not part of this model. It only rewrites text for the foreign markup parser,
  so its effect lies inside the supplied tree.
- DictionaryExtensions.Sort: the code's `CompareTo` is culture-sensitive. The model orders
  keys by ordinal character code, because culture data is outside the model. The model's
  characters are Unicode scalar values, while .NET's ordinal order compares UTF-16 code units,
  so a character above U+FFFF (a surrogate pair in .NET) sorts after U+E000–U+FFFF here and
  before them in .NET.
- Strings.ToLowerAscii: lower-cases ASCII letters only. The culture-dependent lowering of
  other characters is not modelled. Examples are the Kelvin sign, which lowers to `k`, and
  `I` under a Turkish culture.
- Int32Parse.TryParse: accepts the invariant-culture `NumberStyles.Integer` form. That is
  white space 0x09-0x0D or 0x20 at either end, one optional `+` or `-`, and ASCII digits
  in the 32-bit range. Trailing NUL characters and culture-specific signs are not modelled.
- DictionaryExtensions.AppendCount: counts are unbounded integers. The code's 32-bit
  `int` wraps after 2^31-1 increments, which is not modelled.
- DictionaryExtensions.MergeInto: the sum `count + pair.Value` is unbounded. The code adds
  two 32-bit `int`s unchecked, so a sum past 2^31-1 wraps to a negative count.
- HtmlExtensions.IsNoise: `StartsWith("(")` and `StartsWith("@")` are modelled as ordinal
  prefix tests. .NET's one-argument `StartsWith` is culture-sensitive and ignores zero-weight
  characters, so a token such as U+00AD followed by `@x` counts as noise there but not here.
- HtmlExtensions.NodeClassNames: the debugging throw on the token `blahblahblahblahblah` is
  excluded by the `TrapFree` precondition rather than modelled as an exception.
- The `NotSupportedException` default branch of the node switch is not modelled. `Node`
  has exactly the four kinds the switch handles.
- `HtmlExtensions.ClassNames(string)` counts the descendants of the document node, never
  the document node itself. The model therefore takes the list of its children as the
  forest to walk.

=== FILE: css.dfy ===
/**
 * `ClassNamesFromCss`: class names defined by a stylesheet. The stylesheet tokenizer is not
 * part of this model; its output, a sequence of categorised tokens, is the input here.
 */
module StylesheetExtractor {
  import opened Strings
  import opened DictionaryExtensions
  import LazyRegex

  /** The tokenizer's `CharacterCategorisationOptions`. */
  datatype CharacterCategorisation =
    | Comment
    | CloseBrace
    | OpenBrace
    | SemiColon
    | SelectorOrStyleProperty
    | StylePropertyColon
    | Value
    | Whitespace

  datatype Token = Token(category: CharacterCategorisation, value: string)

  /** A selector or property token that starts with `.`: the only kind that names classes. */
  predicate IsClassSelector(t: Token)
    ensures IsClassSelector(t) <==> t.category == SelectorOrStyleProperty && |t.value| > 0 && t.value[0] == '.'
  {
    t.category == SelectorOrStyleProperty && StartsWith(t.value, ".")
  }

  /** `c.Split(':').First()`: the part before any pseudo-class, as in `btn:hover`. */
  function CutPseudoClass(c: string): (r: string)
    ensures ':' !in r
    ensures |r| <= |c| && r == c[..|r|]
    ensures |r| < |c| ==> c[|r|] == ':'
  {
    c[..IndexOf(c, ':')]
  }

  /** Every `[...]` attribute selector removed, as in `btn-default[disabled]`. */
  function RemoveAttributeSelectors(c: string): (r: string)
    ensures forall x :: x in r ==> x in c
    ensures '[' !in c ==> r == c
  {
    LazyRegex.ReplaceChars(c, "[", "]", "");
    LazyRegex.ReplaceWithoutOpen(c, "[", "]", "");
    LazyRegex.Replace(c, "[", "]", "")
  }

  /** A bracketed group after bracket-free text is dropped whole, and the rest is cleaned on its own. */
  lemma RemoveOneAttributeSelector(a: string, b: string, c: string)
    requires '[' !in a && |b| > 0 && '\n' !in b && ']' !in b[1..]
    ensures RemoveAttributeSelectors(a + ("[" + b + "]" + c)) == a + RemoveAttributeSelectors(c)
  {
    LazyRegex.ReplaceGroup(a, "[", b, "]", c, "");
    assert "" + RemoveAttributeSelectors(c) == RemoveAttributeSelectors(c);
  }

  /** Without brackets, the cleaned name is a prefix of the piece, and all of it when nothing is cut. */
  lemma BracketFreeName(piece: string)
    ensures '[' !in piece ==> RemoveAttributeSelectors(CutPseudoClass(piece)) == CutPseudoClass(piece)
    ensures '[' !in piece ==> var r := TrimEnd(CutPseudoClass(piece), ','); |r| <= |piece| && r == piece[..|r|]
    ensures '[' !in piece && ',' !in piece && ':' !in piece ==> TrimEnd(CutPseudoClass(piece), ',') == piece
  {
    var cut := CutPseudoClass(piece);
    var r := TrimEnd(cut, ',');
    if '[' !in piece {
      assert '[' !in cut by {
        forall i | 0 <= i < |cut| ensures cut[i] != '[' { assert cut[i] == piece[i]; }
      }
      assert r == piece[..|r|] by { assert cut[..|r|] == piece[..|r|]; }
      if ',' !in piece && ':' !in piece {
        forall i | 0 <= i < |piece| ensures piece[i] != ':' && piece[i] != ',' { }
        forall i | 0 <= i < |cut| ensures cut[i] != ',' { assert cut[i] == piece[i]; }
      }
    }
  }

  /** One piece of a compound selector turned into a class name. */
  function CleanName(piece: string): (r: string)
    ensures forall x :: x in r ==> x in piece && x != ':'
    ensures |r| == 0 || r[|r| - 1] != ','
    ensures '[' !in piece ==> r == TrimEnd(CutPseudoClass(piece), ',')
    ensures '[' !in piece ==> |r| <= |piece| && r == piece[..|r|]
    ensures '[' !in piece && ',' !in piece && ':' !in piece ==> r == piece
  {
    var name := RemoveAttributeSelectors(CutPseudoClass(piece));
    var r := TrimEnd(name, ',');
    assert forall x :: x in r ==> x in name;
    BracketFreeName(piece);
    r
  }

  /** `CleanName` applied to each piece, in order. */
  function CleanNames(pieces: seq<string>): (r: seq<string>)
    ensures |r| == |pieces|
    ensures forall i :: 0 <= i < |r| ==> r[i] == CleanName(pieces[i])
  {
    if |pieces| == 0 then [] else [CleanName(pieces[0])] + CleanNames(pieces[1..])
  }

  /** The class names one token contributes. */
  function TokenNames(t: Token): (r: seq<string>)
    ensures !IsClassSelector(t) ==> r == []
    ensures IsClassSelector(t) ==> |r| == |Split(t.value, '.')|
    ensures IsClassSelector(t) ==> forall i :: 0 <= i < |r| ==> r[i] == CleanName(Split(t.value, '.')[i])
    ensures forall i :: 0 <= i < |r| ==> '.' !in r[i] && ':' !in r[i] && (|r[i]| == 0 || r[i][|r[i]| - 1] != ',')
  {
    if IsClassSelector(t) then
      var pieces := Split(t.value, '.');
      var r := CleanNames(pieces);
      forall i | 0 <= i < |r| ensures '.' !in r[i] {
        assert r[i] == CleanName(pieces[i]);
        assert '.' !in pieces[i];
      }
      r
    else []
  }

  /** The class names of all tokens, in order. */
  function CssNames(tokens: seq<Token>): (r: seq<string>)
    ensures forall i :: 0 <= i < |r| ==> '.' !in r[i] && ':' !in r[i] && (|r[i]| == 0 || r[i][|r[i]| - 1] != ',')
    ensures (forall j :: 0 <= j < |tokens| ==> !IsClassSelector(tokens[j])) ==> r == []
  {
    if |tokens| == 0 then []
    else
      var a := TokenNames(tokens[0]);
      var b := CssNames(tokens[1..]);
      assert forall i :: 0 <= i < |b| ==> (a + b)[|a| + i] == b[i];
      a + b
  }

  /** The names of a token sequence are those of its parts, one after the other. */
  lemma {:induction false} CssNamesAppend(a: seq<Token>, b: seq<Token>)
    ensures CssNames(a + b) == CssNames(a) + CssNames(b)
  {
    if |a| == 0 {
      assert a + b == b;
    } else {
      assert (a + b)[1..] == a[1..] + b;
      CssNamesAppend(a[1..], b);
    }
  }

  /** A single token contributes exactly its own names. */
  lemma CssNamesOne(t: Token)
    ensures CssNames([t]) == TokenNames(t)
  {
    assert [t][1..] == [];
    assert TokenNames(t) + [] == TokenNames(t);
  }

  /** `ClassNamesFromCss` after the tokenizer: the tally of the names, sorted by key. */
  function ClassNamesFromCss(tokens: seq<Token>): (r: seq<Entry<int>>)
    ensures StrictlySorted(r)
    ensures Keys(r) == set n | n in CssNames(tokens)
    ensures forall k :: TryGet(r, k) == Occurrences(CssNames(tokens), k)
  {
    var tally := Tally(CssNames(tokens));
    SortKeepsLookups(tally);
    Sort(tally)
  }
}

=== FILE: dictionary.dfy ===
/**
 * The counter operations of `DictionaryExtensions`. A .NET `Dictionary` that is only ever
 * added to enumerates its entries in insertion order, so it is modelled as a sequence of
 * key/value entries with distinct keys; assigning through the indexer overwrites an entry
 * in place or appends a new one at the end.
 */
module DictionaryExtensions {
  import opened Wrappers
  import opened Strings

  /** `KeyValuePair<string, V>`. */
  datatype Entry<V> = Entry(key: string, value: V)

  /** The `Pair` class: a left and a right count, produced by `OuterJoin`. */
  datatype Pair = Pair(left: int, right: int)

  /** The dictionary invariant: no key occurs in two entries. */
  predicate DistinctKeys<V>(d: seq<Entry<V>>)
  {
    forall i, j :: 0 <= i < j < |d| ==> d[i].key != d[j].key
  }

  function Keys<V>(d: seq<Entry<V>>): set<string>
  {
    if |d| == 0 then {} else {d[0].key} + Keys(d[1..])
  }

  lemma {:induction false} KeysIndex<V>(d: seq<Entry<V>>, k: string)
    ensures k in Keys(d) <==> exists i :: 0 <= i < |d| && d[i].key == k
  {
    if |d| > 0 {
      KeysIndex(d[1..], k);
      if k in Keys(d[1..]) {
        var i :| 0 <= i < |d[1..]| && d[1..][i].key == k;
        assert d[i + 1].key == k;
      }
      if exists i :: 0 <= i < |d| && d[i].key == k {
        var i :| 0 <= i < |d| && d[i].key == k;
        if i > 0 { assert d[1..][i - 1].key == k; }
      }
    }
  }

  lemma DistinctCons<V>(e: Entry<V>, t: seq<Entry<V>>)
    ensures DistinctKeys([e] + t) <==> DistinctKeys(t) && e.key !in Keys(t)
  {
    var r := [e] + t;
    assert r[1..] == t;
    if DistinctKeys(r) {
      DistinctTail(r);
    }
    if DistinctKeys(t) && e.key !in Keys(t) {
      KeysIndex(t, e.key);
      forall i, j | 0 <= i < j < |r| ensures r[i].key != r[j].key {
        assert r[j] == t[j - 1];
        if i > 0 { assert r[i] == t[i - 1]; }
      }
    }
  }

  /** Dropping the first entry of a dictionary leaves a dictionary without its key. */
  lemma DistinctTail<V>(d: seq<Entry<V>>)
    requires DistinctKeys(d) && |d| > 0
    ensures DistinctKeys(d[1..]) && d[0].key !in Keys(d[1..])
  {
    KeysIndex(d[1..], d[0].key);
  }

  /** The value stored under `k`, if any (`Dictionary.TryGetValue`). */
  function Find<V>(d: seq<Entry<V>>, k: string): (r: Option<V>)
    ensures r.Some? <==> k in Keys(d)
    ensures r.Some? ==> Entry(k, r.value) in d
  {
    if |d| == 0 then None
    else
      if d[0].key == k then Some(d[0].value) else Find(d[1..], k)
  }

  /** Looking up in a non-empty sequence of entries: its first entry, or the rest. */
  lemma HeadFind<V>(d: seq<Entry<V>>)
    requires |d| > 0
    ensures Keys(d) == {d[0].key} + Keys(d[1..])
    ensures forall j :: Find(d, j) == if d[0].key == j then Some(d[0].value) else Find(d[1..], j)
  {
  }

  /** In a dictionary, the entry for `k` is the one `Find` returns. */
  lemma {:induction false} FindEntry<V>(d: seq<Entry<V>>, i: int)
    requires DistinctKeys(d) && 0 <= i < |d|
    ensures Find(d, d[i].key) == Some(d[i].value)
  {
    if i > 0 {
      assert d[0].key != d[i].key;
      assert d[1..][i - 1] == d[i];
      FindEntry(d[1..], i - 1);
    }
  }

  lemma FindIffEntry<V>(d: seq<Entry<V>>, k: string, v: V)
    requires DistinctKeys(d)
    ensures Find(d, k) == Some(v) <==> Entry(k, v) in d
  {
    if Entry(k, v) in d {
      var i :| 0 <= i < |d| && d[i] == Entry(k, v);
      FindEntry(d, i);
    }
  }

  /** `TryGetValue(key, out int count)` with the default 0 for a missing key. */
  function TryGet(d: seq<Entry<int>>, k: string): (r: int)
    ensures k !in Keys(d) ==> r == 0
    ensures k in Keys(d) ==> Entry(k, r) in d
  {
    match Find(d, k)
    case Some(n) => n
    case None => 0
  }

  /** Looking up in a dictionary with one more entry at its front. */
  lemma ConsFind<V>(e: Entry<V>, t: seq<Entry<V>>)
    ensures Keys([e] + t) == {e.key} + Keys(t)
    ensures forall j :: Find([e] + t, j) == if e.key == j then Some(e.value) else Find(t, j)
  {
    assert ([e] + t)[1..] == t;
  }

  /** The indexer assignment `d[k] = v`: overwrite in place, or append when `k` is new. */
  function Set<V>(d: seq<Entry<V>>, k: string, v: V): (r: seq<Entry<V>>)
    requires DistinctKeys(d)
    ensures DistinctKeys(r)
    ensures Find(r, k) == Some(v)
    ensures forall j :: j != k ==> Find(r, j) == Find(d, j)
    ensures Keys(r) == Keys(d) + {k}
    ensures |r| == if k in Keys(d) then |d| else |d| + 1
    ensures forall i :: 0 <= i < |d| ==> r[i].key == d[i].key
  {
    if |d| == 0 then ConsFind(Entry(k, v), []); [Entry(k, v)]
    else
      var h, rest := d[0], d[1..];
      assert d == [h] + rest;
      DistinctCons(h, rest);
      ConsFind(h, rest);
      if h.key == k then
        DistinctCons(Entry(k, v), rest);
        ConsFind(Entry(k, v), rest);
        [Entry(k, v)] + rest
      else
        var t := Set(rest, k, v);
        DistinctCons(h, t);
        ConsFind(h, t);
        [h] + t
  }

  /** `AppendCount`: the count under `key` goes up by one, a missing key counting as 0. */
  function AppendCount(counter: seq<Entry<int>>, key: string): (r: seq<Entry<int>>)
    requires DistinctKeys(counter)
    ensures DistinctKeys(r)
    ensures TryGet(r, key) == TryGet(counter, key) + 1
    ensures forall j :: j != key ==> TryGet(r, j) == TryGet(counter, j)
    ensures Keys(r) == Keys(counter) + {key}
  {
    Set(counter, key, TryGet(counter, key) + 1)
  }

  /** `MergeInto`: each source entry is added to the destination's count (missing = 0). */
  function MergeInto(source: seq<Entry<int>>, destination: seq<Entry<int>>): (r: seq<Entry<int>>)
    requires DistinctKeys(source) && DistinctKeys(destination)
    ensures DistinctKeys(r)
    ensures Keys(r) == Keys(destination) + Keys(source)
  {
    if |source| == 0 then destination
    else
      var e, rest := source[0], source[1..];
      DistinctTail(source);
      var d := Set(destination, e.key, TryGet(destination, e.key) + e.value);
      MergeInto(rest, d)
  }

  lemma MergeIntoStep(source: seq<Entry<int>>, destination: seq<Entry<int>>)
    requires DistinctKeys(source) && DistinctKeys(destination) && |source| > 0
    ensures DistinctKeys(source[1..]) && source[0].key !in Keys(source[1..])
    ensures MergeInto(source, destination)
         == MergeInto(source[1..], Set(destination, source[0].key, TryGet(destination, source[0].key) + source[0].value))
  {
    DistinctTail(source);
  }

  lemma SetTryGet(d: seq<Entry<int>>, k: string, v: int, j: string)
    requires DistinctKeys(d)
    ensures TryGet(Set(d, k, v), j) == if j == k then v else TryGet(d, j)
  {
  }

  lemma HeadTryGet(d: seq<Entry<int>>, j: string)
    requires DistinctKeys(d) && |d| > 0
    ensures TryGet(d, j) == if j == d[0].key then d[0].value else TryGet(d[1..], j)
    ensures TryGet(d[1..], d[0].key) == 0
  {
    DistinctTail(d);
  }

  /** After merging, every key holds the sum of its destination and source counts. */
  lemma {:induction false} MergeIntoCounts(source: seq<Entry<int>>, destination: seq<Entry<int>>, k: string)
    requires DistinctKeys(source) && DistinctKeys(destination)
    ensures TryGet(MergeInto(source, destination), k) == TryGet(destination, k) + TryGet(source, k)
    decreases |source|
  {
    if |source| > 0 {
      DistinctTail(source);
      MergeIntoCounts(source[1..], Set(destination, source[0].key, TryGet(destination, source[0].key) + source[0].value), k);
      MergeIntoCountsStep(source, destination, k);
    }
  }

  lemma MergeIntoCountsStep(source: seq<Entry<int>>, destination: seq<Entry<int>>, k: string)
    requires DistinctKeys(source) && DistinctKeys(destination) && |source| > 0
    requires TryGet(MergeInto(source[1..], Set(destination, source[0].key, TryGet(destination, source[0].key) + source[0].value)), k)
      == TryGet(Set(destination, source[0].key, TryGet(destination, source[0].key) + source[0].value), k) + TryGet(source[1..], k)
    ensures TryGet(MergeInto(source, destination), k) == TryGet(destination, k) + TryGet(source, k)
  {
    var e := source[0];
    MergeIntoStep(source, destination);
    SetTryGet(destination, e.key, TryGet(destination, e.key) + e.value, k);
    HeadTryGet(source, k);
  }

  /** Merging is additive, not idempotent: merging the same source twice adds its counts twice. */
  lemma MergeTwiceAddsTwice(source: seq<Entry<int>>, destination: seq<Entry<int>>, k: string)
    requires DistinctKeys(source) && DistinctKeys(destination)
    ensures TryGet(MergeInto(source, MergeInto(source, destination)), k)
         == TryGet(destination, k) + 2 * TryGet(source, k)
  {
    MergeIntoCounts(source, destination, k);
    MergeIntoCounts(source, MergeInto(source, destination), k);
  }

  /** The first loop of `OuterJoin`: each left entry paired with the right count (missing = 0). */
  function JoinLeft(left: seq<Entry<int>>, right: seq<Entry<int>>, join: seq<Entry<Pair>>): (r: seq<Entry<Pair>>)
    requires DistinctKeys(left) && DistinctKeys(join)
    ensures DistinctKeys(r)
    ensures Keys(r) == Keys(join) + Keys(left)
    ensures forall k :: k in Keys(left) ==> Find(r, k) == Some(Pair(TryGet(left, k), TryGet(right, k)))
    ensures forall k :: k !in Keys(left) ==> Find(r, k) == Find(join, k)
  {
    if |left| == 0 then join
    else
      var l := left[0];
      DistinctTail(left);
      HeadFind(left);
      JoinLeft(left[1..], right, Set(join, l.key, Pair(l.value, TryGet(right, l.key))))
  }

  /** The second loop of `OuterJoin`: right entries whose key is not yet joined get a left count of 0. */
  function JoinRight(right: seq<Entry<int>>, join: seq<Entry<Pair>>): (r: seq<Entry<Pair>>)
    requires DistinctKeys(join)
    ensures DistinctKeys(r)
    ensures Keys(r) == Keys(join) + Keys(right)
  {
    if |right| == 0 then join
    else
      var e := right[0];
      HeadFind(right);
      if e.key in Keys(join) then JoinRight(right[1..], join)
      else JoinRight(right[1..], Set(join, e.key, Pair(0, e.value)))
  }

  /** Keys already joined keep their pair; a right-only key gets the pair (0, right count). */
  lemma {:induction false} JoinRightFind(right: seq<Entry<int>>, join: seq<Entry<Pair>>, k: string)
    requires DistinctKeys(join)
    ensures k in Keys(join) ==> Find(JoinRight(right, join), k) == Find(join, k)
    ensures k in Keys(right) && k !in Keys(join) ==> Find(JoinRight(right, join), k) == Some(Pair(0, TryGet(right, k)))
    decreases |right|
  {
    if |right| > 0 {
      var e := right[0];
      HeadFind(right);
      if e.key in Keys(join) {
        JoinRightFind(right[1..], join, k);
      } else {
        var next := Set(join, e.key, Pair(0, e.value));
        assert JoinRight(right, join) == JoinRight(right[1..], next);
        JoinRightFind(right[1..], next, k);
      }
    }
  }

  /** `OuterJoin`: every key of either side, paired with its left and right counts, 0 for a missing side. */
  function OuterJoin(left: seq<Entry<int>>, right: seq<Entry<int>>): (r: seq<Entry<Pair>>)
    requires DistinctKeys(left)
    ensures DistinctKeys(r)
    ensures Keys(r) == Keys(left) + Keys(right)
  {
    JoinRight(right, JoinLeft(left, right, []))
  }

  /**
   * A key of either side maps to its left and right counts, 0 standing for the side that
   * lacks it; any other key is absent.
   */
  lemma OuterJoinFind(left: seq<Entry<int>>, right: seq<Entry<int>>, k: string)
    requires DistinctKeys(left)
    ensures Find(OuterJoin(left, right), k)
         == if k in Keys(left) + Keys(right) then Some(Pair(TryGet(left, k), TryGet(right, k))) else None
  {
    var join := JoinLeft(left, right, []);
    JoinRightFind(right, join, k);
  }

  /** Strictly ascending keys in ordinal order. */
  predicate StrictlySorted<V>(d: seq<Entry<V>>)
  {
    forall i, j :: 0 <= i < j < |d| ==> Less(d[i].key, d[j].key)
  }

  lemma SortedHead<V>(d: seq<Entry<V>>)
    requires StrictlySorted(d) && |d| > 0
    ensures forall k :: k in Keys(d[1..]) ==> Less(d[0].key, k)
  {
    forall k | k in Keys(d[1..]) ensures Less(d[0].key, k) {
      KeysIndex(d[1..], k);
      var i :| 0 <= i < |d[1..]| && d[1..][i].key == k;
      assert d[i + 1].key == k;
    }
  }

  lemma SortedCons<V>(x: Entry<V>, t: seq<Entry<V>>)
    requires StrictlySorted(t)
    requires forall k :: k in Keys(t) ==> Less(x.key, k)
    ensures StrictlySorted([x] + t)
  {
    var r := [x] + t;
    forall i, j | 0 <= i < j < |r| ensures Less(r[i].key, r[j].key) {
      assert r[j] == t[j - 1];
      if i == 0 {
        KeysIndex(t, t[j - 1].key);
      } else {
        assert r[i] == t[i - 1];
      }
    }
  }

  function Insert<V>(e: Entry<V>, d: seq<Entry<V>>): (r: seq<Entry<V>>)
    requires StrictlySorted(d) && e.key !in Keys(d)
    ensures StrictlySorted(r)
    ensures multiset(r) == multiset(d) + multiset{e}
    ensures Keys(r) == Keys(d) + {e.key}
  {
    if |d| == 0 then [e]
    else
      assert d == [d[0]] + d[1..];
      SortedHead(d);
      if Less(e.key, d[0].key) then
        var r := [e] + d;
        forall k | k in Keys(d) ensures Less(e.key, k) {
          if k != d[0].key { LessTransitive(e.key, d[0].key, k); }
        }
        SortedCons(e, d);
        assert r[1..] == d;
        r
      else
        LessTotal(e.key, d[0].key);
        assert StrictlySorted(d[1..]);
        var t := Insert(e, d[1..]);
        var r := [d[0]] + t;
        SortedCons(d[0], t);
        assert r[1..] == t;
        r
  }

  /** Both `Sort` overloads: the same entries, reordered by ascending ordinal key. */
  function Sort<V>(d: seq<Entry<V>>): (r: seq<Entry<V>>)
    requires DistinctKeys(d)
    ensures StrictlySorted(r)
    ensures multiset(r) == multiset(d)
    ensures Keys(r) == Keys(d)
  {
    if |d| == 0 then []
    else
      assert d == [d[0]] + d[1..];
      DistinctCons(d[0], d[1..]);
      Insert(d[0], Sort(d[1..]))
  }

  lemma SortedDistinct<V>(d: seq<Entry<V>>)
    requires StrictlySorted(d)
    ensures DistinctKeys(d)
  {
    forall i, j | 0 <= i < j < |d| ensures d[i].key != d[j].key {
      if d[i].key == d[j].key { LessIrreflexive(d[i].key); }
    }
  }

  /** Sorting only reorders: every key still finds the value it had. */
  lemma SortKeepsLookups<V>(d: seq<Entry<V>>)
    requires DistinctKeys(d)
    ensures forall k :: Find(Sort(d), k) == Find(d, k)
  {
    var r := Sort(d);
    SortedDistinct(r);
    forall k ensures Find(r, k) == Find(d, k) {
      match Find(d, k)
      case None =>
      case Some(v) =>
        FindIffEntry(d, k, v);
        assert Entry(k, v) in multiset(r);
        FindIffEntry(r, k, v);
    }
  }

  /** Repeated `AppendCount`, one call per name in order: the `foreach`/`ForEach` tally loops. */
  function AppendAll(counter: seq<Entry<int>>, names: seq<string>): (r: seq<Entry<int>>)
    requires DistinctKeys(counter)
    ensures DistinctKeys(r)
    ensures Keys(r) == Keys(counter) + (set n | n in names)
    decreases |names|
  {
    if |names| == 0 then counter
    else
      assert (set n | n in names) == {names[0]} + (set n | n in names[1..]) by {
        assert forall n :: n in names <==> n == names[0] || n in names[1..];
      }
      AppendAll(AppendCount(counter, names[0]), names[1..])
  }

  /** Each name adds one to its own count: a key gains as much as it occurs among the names. */
  lemma {:induction false} AppendAllCounts(counter: seq<Entry<int>>, names: seq<string>)
    requires DistinctKeys(counter)
    ensures forall k :: TryGet(AppendAll(counter, names), k) == TryGet(counter, k) + Occurrences(names, k)
    decreases |names|
  {
    if |names| > 0 {
      var c := AppendCount(counter, names[0]);
      assert AppendAll(counter, names) == AppendAll(c, names[1..]);
      AppendAllCounts(c, names[1..]);
    }
  }

  /** A fresh counter filled from `names`: each name counted as often as it occurs, and nothing else. */
  function Tally(names: seq<string>): (r: seq<Entry<int>>)
    ensures DistinctKeys(r)
    ensures Keys(r) == set n | n in names
    ensures forall k :: TryGet(r, k) == Occurrences(names, k)
  {
    AppendAllCounts([], names);
    AppendAll([], names)
  }

  /** Every key a tally holds has been seen at least once: no zero counts are stored. */
  lemma TallyPositive(names: seq<string>)
    ensures forall i :: 0 <= i < |Tally(names)| ==> Tally(names)[i].value >= 1
  {
    var r := Tally(names);
    forall i | 0 <= i < |r| ensures r[i].value >= 1 {
      FindEntry(r, i);
      KeysIndex(r, r[i].key);
      assert TryGet(r, r[i].key) == r[i].value;
    }
  }

  /** Sum of all the counts in a counter. */
  function Total(d: seq<Entry<int>>): int
  {
    if |d| == 0 then 0 else d[0].value + Total(d[1..])
  }

  lemma {:induction false} TotalSet(d: seq<Entry<int>>, k: string, v: int)
    requires DistinctKeys(d)
    ensures Total(Set(d, k, v)) == Total(d) - TryGet(d, k) + v
  {
    if |d| > 0 {
      assert d == [d[0]] + d[1..];
      DistinctCons(d[0], d[1..]);
      if d[0].key == k {
        assert Find(d[1..], k).None?;
        assert Set(d, k, v)[1..] == d[1..];
      } else {
        TotalSet(d[1..], k, v);
        assert Set(d, k, v)[1..] == Set(d[1..], k, v);
      }
    }
  }

  /** Each name appended adds exactly one to the total. */
  lemma {:induction false} AppendAllTotal(counter: seq<Entry<int>>, names: seq<string>)
    requires DistinctKeys(counter)
    ensures Total(AppendAll(counter, names)) == Total(counter) + |names|
    decreases |names|
  {
    if |names| > 0 {
      var c := AppendCount(counter, names[0]);
      assert AppendAll(counter, names) == AppendAll(c, names[1..]);
      TotalSet(counter, names[0], TryGet(counter, names[0]) + 1);
      AppendAllTotal(c, names[1..]);
    }
  }
}

=== FILE: html.dfy ===
/**
 * `HtmlExtensions`: class names used in markup. The markup parser is not part of this
 * model; its output is supplied as a tree of `Node`s. For an element, `inner` is the tree
 * obtained by parsing the element's inner markup on its own, which the script-template
 * case walks a second time.
 */
module HtmlExtensions {
  import opened Wrappers
  import opened Strings
  import opened DictionaryExtensions
  import LazyRegex
  import Int32Parse

  /** An attribute as the parser reports it, in document order. */
  datatype Attribute = Attribute(name: string, value: string)

  datatype Node =
    | Text
    | Comment
    | Document(innerHtml: string, children: seq<Node>)
    | Element(name: string, attributes: seq<Attribute>, children: seq<Node>, inner: seq<Node>)

  /** The debugging token at which the C# walk throws `InvalidOperationException`; excluded by `TrapFree`. */
  const DebugTrap: string := "blahblahblahblahblah"

  /** The tokens that leak from template expressions into class attributes. */
  predicate IsNoise(s: string)
    ensures IsNoise(s) ==> |s| > 0
  {
    s in ["!=", "%", "?", "=="]
    || Int32Parse.TryParse(s).Some?
    || StartsWith(s, "(")
    || StartsWith(s, "@")
  }

  /** A token that starts with an ASCII letter is never noise. */
  lemma LetterStartIsNotNoise(s: string)
    requires |s| > 0 && ('a' <= s[0] <= 'z' || 'A' <= s[0] <= 'Z')
    ensures !IsNoise(s)
  {
    var t := Int32Parse.TrimNumberWhite(s);
    assert t[0] == s[0];
    assert !Int32Parse.IsDigit(t[0]);
    assert s !in ["!=", "%", "?", "=="] by {
      assert s[0] != '!' && s[0] != '%' && s[0] != '?' && s[0] != '=';
    }
  }

  /**
   * A printed integer is noise exactly when it fits in 32 bits: `2147483648` is kept as a
   * class name, `2147483647` is dropped.
   */
  lemma PrintedNumberNoise(n: int)
    requires n >= 0
    ensures IsNoise(Int32Parse.Show(n)) <==> n <= Int32Parse.Int32Max
  {
    var s := Int32Parse.ShowNat(n);
    assert Int32Parse.Show(n) == s;
    Int32Parse.ParseShowNat(n);
    assert Int32Parse.IsDigit(s[0]);
    assert !StartsWith(s, "(") && !StartsWith(s, "@");
    assert s !in ["!=", "%", "?", "=="];
  }

  /** Every `<% ... %>` (template code, on one line) replaced by a single space. */
  function StripErb(s: string): (r: string)
    ensures forall c :: c in r ==> c in s || c == ' '
    ensures '<' !in s ==> r == s
  {
    LazyRegex.ReplaceChars(s, "<%", "%>", " ");
    LazyRegex.ReplaceWithoutOpen(s, "<%", "%>", " ");
    LazyRegex.Replace(s, "<%", "%>", " ")
  }

  /** A one-line `<% ... %>` group after `<`-free text becomes one space; the rest is stripped on its own. */
  lemma StripOneErbGroup(a: string, b: string, c: string)
    requires '<' !in a && |b| > 0 && '\n' !in b && '%' !in b[1..]
    ensures StripErb(a + ("<%" + b + "%>" + c)) == a + (" " + StripErb(c))
  {
    LazyRegex.ReplaceGroup(a, "<%", b, "%>", c, " ");
  }

  /**
   * The class names of one attribute: none unless it is named exactly `class`; otherwise
   * the space-separated pieces of its value once template code is blanked out.
   */
  function AttributeClassNames(a: Attribute): (r: seq<string>)
    ensures a.name != "class" ==> r == []
    ensures forall i :: 0 <= i < |r| ==> |r[i]| > 0 && ' ' !in r[i]
    ensures a.name == "class" ==> Concat(r) == Remove(StripErb(a.value), ' ')
  {
    if a.name == "class" then
      SplitKeepsEverythingButSeparators(StripErb(a.value), ' ');
      Split(StripErb(a.value), ' ')
    else []
  }

  /** The tokens of `ts` that are not noise, in order. */
  function WithoutNoise(ts: seq<string>): (r: seq<string>)
    ensures forall i :: 0 <= i < |r| ==> r[i] in ts && !IsNoise(r[i])
    ensures forall t :: t in ts && !IsNoise(t) ==> t in r
  {
    if |ts| == 0 then []
    else (if IsNoise(ts[0]) then [] else [ts[0]]) + WithoutNoise(ts[1..])
  }

  /** The class names an element's attributes contribute, noise removed. */
  function AttributesClassNames(attributes: seq<Attribute>): (r: seq<string>)
    ensures forall i :: 0 <= i < |r| ==> |r[i]| > 0 && ' ' !in r[i] && !IsNoise(r[i])
    ensures (forall j :: 0 <= j < |attributes| ==> attributes[j].name != "class") ==> r == []
  {
    if |attributes| == 0 then []
    else WithoutNoise(AttributeClassNames(attributes[0])) + AttributesClassNames(attributes[1..])
  }

  /** Filtering noise keeps every other token exactly as often as it occurs, and drops noise entirely. */
  lemma {:induction false} WithoutNoiseCounts(ts: seq<string>, k: string)
    ensures Occurrences(WithoutNoise(ts), k) == if IsNoise(k) then 0 else Occurrences(ts, k)
  {
    if |ts| > 0 {
      var h := if IsNoise(ts[0]) then [] else [ts[0]];
      WithoutNoiseCounts(ts[1..], k);
      OccurrencesAppend(h, WithoutNoise(ts[1..]), k);
    }
  }

  /** Filtering noise commutes with concatenation, so it keeps the order of the tokens. */
  lemma {:induction false} WithoutNoiseAppend(a: seq<string>, b: seq<string>)
    ensures WithoutNoise(a + b) == WithoutNoise(a) + WithoutNoise(b)
  {
    if |a| == 0 {
      assert a + b == b;
    } else {
      assert (a + b)[0] == a[0];
      assert (a + b)[1..] == a[1..] + b;
      WithoutNoiseAppend(a[1..], b);
    }
  }

  /** The class tokens of every `class` attribute, in attribute order, noise included. */
  function ClassTokens(attributes: seq<Attribute>): (r: seq<string>)
    ensures (forall j :: 0 <= j < |attributes| ==> attributes[j].name != "class") ==> r == []
  {
    if |attributes| == 0 then [] else AttributeClassNames(attributes[0]) + ClassTokens(attributes[1..])
  }

  /** An element's class names are its class tokens, in order, with the noise filtered out. */
  lemma {:induction false} AttributesClassNamesFilter(attributes: seq<Attribute>)
    ensures AttributesClassNames(attributes) == WithoutNoise(ClassTokens(attributes))
  {
    if |attributes| > 0 {
      AttributesClassNamesFilter(attributes[1..]);
      WithoutNoiseAppend(AttributeClassNames(attributes[0]), ClassTokens(attributes[1..]));
    }
  }

  /**
   * Each name that is not noise is yielded once per occurrence among the split, template-free
   * values of the `class` attributes; noise is never yielded.
   */
  lemma AttributesClassNamesCounts(attributes: seq<Attribute>, k: string)
    ensures Occurrences(AttributesClassNames(attributes), k)
         == if IsNoise(k) then 0 else Occurrences(ClassTokens(attributes), k)
  {
    AttributesClassNamesFilter(attributes);
    WithoutNoiseCounts(ClassTokens(attributes), k);
  }

  /** An attribute whose name, lower-cased, is `type`. */
  predicate NamesType(a: Attribute)
  {
    ToLowerAscii(a.name) == "type"
  }

  /** `attributes[i]` is the first attribute whose lower-cased name is `type`. */
  predicate IsFirstType(attributes: seq<Attribute>, i: int)
    requires 0 <= i < |attributes|
  {
    && NamesType(attributes[i])
    && forall j :: 0 <= j < i ==> !NamesType(attributes[j])
  }

  /** The value of the first attribute whose lower-cased name is `type`. */
  function TypeAttribute(attributes: seq<Attribute>): (r: Option<string>)
    ensures r.None? <==> forall j :: 0 <= j < |attributes| ==> !NamesType(attributes[j])
    ensures r.Some? ==> exists i :: 0 <= i < |attributes| && IsFirstType(attributes, i) && attributes[i].value == r.value
  {
    if |attributes| == 0 then None
    else if NamesType(attributes[0]) then Some(attributes[0].value)
    else
      var r := TypeAttribute(attributes[1..]);
      assert forall j :: 1 <= j < |attributes| ==> attributes[j] == attributes[1..][j - 1];
      r
  }

  /**
   * An element named `script` (any case) whose first `type` attribute is present and is not
   * exactly `text/javascript`: a client-side template block.
   */
  predicate IsScriptTemplate(n: Node)
    ensures IsScriptTemplate(n) ==> n.Element? && exists i ::
      0 <= i < |n.attributes| && IsFirstType(n.attributes, i) && n.attributes[i].value != "text/javascript"
  {
    && n.Element?
    && ToLowerAscii(n.name) == "script"
    && TypeAttribute(n.attributes).Some?
    && TypeAttribute(n.attributes).value != "text/javascript"
  }

  /** The node walk never meets the debugging token (the C# walk would throw there). */
  predicate TrapFreeNode(n: Node)
    decreases n
  {
    match n
    case Text => true
    case Comment => true
    case Document(_, children) => TrapFree(children)
    case Element(_, attributes, children, inner) =>
      && DebugTrap !in AttributesClassNames(attributes)
      && TrapFree(children)
      && (IsScriptTemplate(n) ==> TrapFree(inner))
  }

  predicate TrapFree(ns: seq<Node>)
    decreases ns
  {
    forall i :: 0 <= i < |ns| ==> TrapFreeNode(ns[i])
  }

  /** The `for (int i = 0; i < count; i++)` loop: `key`, `count` times. */
  function Repeat(key: string, count: int): (r: seq<string>)
    ensures |r| == if count < 0 then 0 else count
    ensures forall i :: 0 <= i < |r| ==> r[i] == key
    decreases count
  {
    if count <= 0 then [] else [key] + Repeat(key, count - 1)
  }

  /** Every entry of a counter replayed as its key, as many times as its count. */
  function Replay(counter: seq<Entry<int>>): (r: seq<string>)
    ensures forall i :: 0 <= i < |r| ==> r[i] in Keys(counter)
  {
    if |counter| == 0 then []
    else
      var a := Repeat(counter[0].key, counter[0].value);
      var b := Replay(counter[1..]);
      assert forall i :: 0 <= i < |b| ==> (a + b)[|a| + i] == b[i];
      a + b
  }

  /** A name the walk can yield: never empty, and never the debugging token it throws at. */
  predicate YieldedName(x: string)
  {
    |x| > 0 && x != DebugTrap
  }

  /** The class names one node yields, before its descendants are visited. */
  function NodeClassNames(n: Node): (r: seq<string>)
    requires TrapFreeNode(n)
    ensures forall i :: 0 <= i < |r| ==> YieldedName(r[i])
    ensures n.Element? && !IsScriptTemplate(n) ==> r == AttributesClassNames(n.attributes)
    ensures n.Text? || n.Comment? ==> r == []
    decreases n, 0
  {
    match n
    case Text => []
    case Comment => []
    case Document(innerHtml, _) => ["HTML document not allowed: '" + innerHtml + "'"]
    case Element(_, attributes, _, inner) =>
      (if IsScriptTemplate(n) then Replay(ClassNamesOfTree(inner)) else [])
      + AttributesClassNames(attributes)
  }

  /** The names of a node followed by those of its descendants. */
  function WalkNode(n: Node): (r: seq<string>)
    requires TrapFreeNode(n)
    ensures forall i :: 0 <= i < |r| ==> YieldedName(r[i])
    decreases n, 1
  {
    NodeClassNames(n) + match n
      case Document(_, children) => Walk(children)
      case Element(_, _, children, _) => Walk(children)
      case _ => []
  }

  /** The names of every node of the forest, each node before its children (`Descendants()`). */
  function Walk(ns: seq<Node>): (r: seq<string>)
    requires TrapFree(ns)
    ensures forall i :: 0 <= i < |r| ==> YieldedName(r[i])
    decreases ns, 0
  {
    if |ns| == 0 then [] else WalkNode(ns[0]) + Walk(ns[1..])
  }

  /** `ClassNames(this string html)` applied to the parsed forest: the tally of the walk. */
  function ClassNamesOfTree(ns: seq<Node>): (r: seq<Entry<int>>)
    requires TrapFree(ns)
    ensures DistinctKeys(r)
    ensures forall k :: TryGet(r, k) == Occurrences(Walk(ns), k)
    ensures forall i :: 0 <= i < |r| ==> r[i].value >= 1 && YieldedName(r[i].key)
    decreases ns, 1
  {
    var names := Walk(ns);
    TallyPositive(names);
    var r := Tally(names);
    forall i | 0 <= i < |r| ensures YieldedName(r[i].key) {
      KeysIndex(r, r[i].key);
      assert r[i].key in names;
    }
    r
  }

  lemma {:induction false} RepeatOccurrences(key: string, count: int, k: string)
    ensures Occurrences(Repeat(key, count), k) == if key == k && count > 0 then count else 0
    decreases count
  {
    if count > 0 {
      RepeatOccurrences(key, count - 1, k);
    }
  }

  /** Replaying a counter with no negative counts emits each key exactly its count times. */
  lemma {:induction false} ReplayCounts(counter: seq<Entry<int>>, k: string)
    requires DistinctKeys(counter)
    requires forall i :: 0 <= i < |counter| ==> counter[i].value >= 0
    ensures Occurrences(Replay(counter), k) == TryGet(counter, k)
    ensures |Replay(counter)| == Total(counter)
  {
    if |counter| > 0 {
      var e := counter[0];
      assert counter == [e] + counter[1..];
      DistinctCons(e, counter[1..]);
      ReplayCounts(counter[1..], k);
      RepeatOccurrences(e.key, e.value, k);
      OccurrencesAppend(Repeat(e.key, e.value), Replay(counter[1..]), k);
    }
  }

  /**
   * A script template yields the inner markup's tally replayed (each name as often as the
   * inner walk counted it) followed by its own class names; the number of names it yields
   * grows by the inner total.
   */
  lemma TemplateReplaysInnerTally(n: Node, k: string)
    requires TrapFreeNode(n) && IsScriptTemplate(n)
    ensures Occurrences(NodeClassNames(n), k)
         == TryGet(ClassNamesOfTree(n.inner), k) + Occurrences(AttributesClassNames(n.attributes), k)
    ensures |NodeClassNames(n)| == |Walk(n.inner)| + |AttributesClassNames(n.attributes)|
  {
    var names := Walk(n.inner);
    var inner := Tally(names);
    TallyPositive(names);
    ReplayCounts(inner, k);
    AppendAllTotal([], names);
    OccurrencesAppend(Replay(inner), AttributesClassNames(n.attributes), k);
  }

  /** A `script` that is executable (type `text/javascript`) or untyped yields only its own class names. */
  lemma PlainScriptYieldsOwnClassNames(n: Node)
    requires n.Element? && TrapFreeNode(n) && ToLowerAscii(n.name) == "script"
    requires TypeAttribute(n.attributes).None? || TypeAttribute(n.attributes).value == "text/javascript"
    ensures NodeClassNames(n) == AttributesClassNames(n.attributes)
  {
  }

  /** `Descendants()`: every node below the forest's roots and the roots themselves, in document order. */
  function Descendants(ns: seq<Node>): seq<Node>
    decreases ns, 0
  {
    if |ns| == 0 then [] else [ns[0]] + DescendantsBelow(ns[0]) + Descendants(ns[1..])
  }

  function DescendantsBelow(n: Node): seq<Node>
    decreases n, 1
  {
    match n
    case Document(_, children) => Descendants(children)
    case Element(_, _, children, _) => Descendants(children)
    case _ => []
  }

  lemma TrapFreeAppend(a: seq<Node>, b: seq<Node>)
    ensures TrapFree(a + b) <==> TrapFree(a) && TrapFree(b)
  {
    assert forall i :: 0 <= i < |a| ==> (a + b)[i] == a[i];
    assert forall i :: 0 <= i < |b| ==> (a + b)[|a| + i] == b[i];
    if TrapFree(a) && TrapFree(b) {
      forall i | 0 <= i < |a + b| ensures TrapFreeNode((a + b)[i]) {
        if i >= |a| { assert (a + b)[i] == b[i - |a|]; }
      }
    }
  }

  /** Every descendant of a forest the walk can finish is one the walk can finish. */
  lemma {:induction false} DescendantsTrapFree(ns: seq<Node>)
    requires TrapFree(ns)
    ensures TrapFree(Descendants(ns))
    decreases ns, 0
  {
    if |ns| > 0 {
      DescendantsBelowTrapFree(ns[0]);
      DescendantsTrapFree(ns[1..]);
      TrapFreeAppend([ns[0]], DescendantsBelow(ns[0]));
      TrapFreeAppend([ns[0]] + DescendantsBelow(ns[0]), Descendants(ns[1..]));
    }
  }

  lemma {:induction false} DescendantsBelowTrapFree(n: Node)
    requires TrapFreeNode(n)
    ensures TrapFree(DescendantsBelow(n))
    decreases n, 1
  {
    match n
    case Document(_, children) => DescendantsTrapFree(children);
    case Element(_, _, children, _) => DescendantsTrapFree(children);
    case Text =>
    case Comment =>
  }

  /** The names each node of `ds` yields on its own, node after node. */
  function NodesClassNames(ds: seq<Node>): seq<string>
    requires TrapFree(ds)
  {
    if |ds| == 0 then [] else NodeClassNames(ds[0]) + NodesClassNames(ds[1..])
  }

  lemma {:induction false} NodesClassNamesAppend(a: seq<Node>, b: seq<Node>)
    requires TrapFree(a) && TrapFree(b)
    ensures TrapFree(a + b) && NodesClassNames(a + b) == NodesClassNames(a) + NodesClassNames(b)
  {
    TrapFreeAppend(a, b);
    if |a| > 0 {
      assert (a + b)[1..] == a[1..] + b;
      NodesClassNamesAppend(a[1..], b);
    } else {
      assert a + b == b;
    }
  }

  /**
   * The walk visits the nodes in document order: its names are those of each node of
   * `Descendants()` in turn, templates and document nodes included.
   */
  lemma {:induction false} WalkInDocumentOrder(ns: seq<Node>)
    requires TrapFree(ns)
    ensures TrapFree(Descendants(ns)) && Walk(ns) == NodesClassNames(Descendants(ns))
    decreases ns, 0
  {
    DescendantsTrapFree(ns);
    if |ns| > 0 {
      var n := ns[0];
      DescendantsBelowTrapFree(n);
      DescendantsTrapFree(ns[1..]);
      WalkNodeInDocumentOrder(n);
      WalkInDocumentOrder(ns[1..]);
      NodesClassNamesAppend([n], DescendantsBelow(n));
      NodesClassNamesAppend([n] + DescendantsBelow(n), Descendants(ns[1..]));
    }
  }

  lemma {:induction false} WalkNodeInDocumentOrder(n: Node)
    requires TrapFreeNode(n)
    ensures TrapFree([n] + DescendantsBelow(n))
    ensures WalkNode(n) == NodesClassNames([n] + DescendantsBelow(n))
    decreases n, 1
  {
    DescendantsBelowTrapFree(n);
    NodesClassNamesAppend([n], DescendantsBelow(n));
    assert NodesClassNames([n]) == NodeClassNames(n) by {
      assert [n][1..] == [];
    }
    match n
    case Document(_, children) => WalkInDocumentOrder(children);
    case Element(_, _, children, _) => WalkInDocumentOrder(children);
    case Text =>
    case Comment =>
  }

  /** The class names a node contributes by its own attributes. */
  function OwnClassNames(n: Node): seq<string>
  {
    if n.Element? then AttributesClassNames(n.attributes) else []
  }

  /** The class names of the element nodes of `ds`, taken from their attributes only. */
  function ElementClassNames(ds: seq<Node>): seq<string>
  {
    if |ds| == 0 then [] else OwnClassNames(ds[0]) + ElementClassNames(ds[1..])
  }

  lemma {:induction false} ElementClassNamesAppend(a: seq<Node>, b: seq<Node>)
    ensures ElementClassNames(a + b) == ElementClassNames(a) + ElementClassNames(b)
  {
    if |a| > 0 {
      assert (a + b)[1..] == a[1..] + b;
      ElementClassNamesAppend(a[1..], b);
    } else {
      assert a + b == b;
    }
  }

  /** No node is a document node or a script template. */
  predicate Plain(ds: seq<Node>)
  {
    forall i :: 0 <= i < |ds| ==> !ds[i].Document? && !IsScriptTemplate(ds[i])
  }

  lemma PlainAppend(a: seq<Node>, b: seq<Node>)
    ensures Plain(a + b) <==> Plain(a) && Plain(b)
  {
    assert forall i :: 0 <= i < |a| ==> (a + b)[i] == a[i];
    assert forall i :: 0 <= i < |b| ==> (a + b)[|a| + i] == b[i];
    if Plain(a) && Plain(b) {
      forall i | 0 <= i < |a + b| ensures !(a + b)[i].Document? && !IsScriptTemplate((a + b)[i]) {
        if i >= |a| { assert (a + b)[i] == b[i - |a|]; }
      }
    }
  }

  /**
   * Without templates or document nodes, the walk yields exactly the class names of the
   * element nodes among the descendants, in document order.
   */
  lemma {:induction false} PlainWalk(ns: seq<Node>)
    requires TrapFree(ns) && Plain(Descendants(ns))
    ensures Walk(ns) == ElementClassNames(Descendants(ns))
    decreases ns, 0
  {
    if |ns| > 0 {
      var n := ns[0];
      PlainAppend([n] + DescendantsBelow(n), Descendants(ns[1..]));
      PlainAppend([n], DescendantsBelow(n));
      PlainWalkNode(n);
      PlainWalk(ns[1..]);
      ElementClassNamesAppend([n] + DescendantsBelow(n), Descendants(ns[1..]));
      ElementClassNamesAppend([n], DescendantsBelow(n));
    }
  }

  lemma {:induction false} PlainWalkNode(n: Node)
    requires TrapFreeNode(n) && Plain([n] + DescendantsBelow(n))
    ensures WalkNode(n) == ElementClassNames([n] + DescendantsBelow(n))
    decreases n, 1
  {
    var below := DescendantsBelow(n);
    PlainAppend([n], below);
    assert !n.Document? && !IsScriptTemplate(n) by { assert ([n] + below)[0] == n; }
    ElementClassNamesAppend([n], below);
    var own := OwnClassNames(n);
    assert ElementClassNames([n]) == own by {
      assert [n][1..] == [];
    }
    assert NodeClassNames(n) == own;
    match n
    case Element(_, _, children, _) =>
      PlainWalk(children);
      assert WalkNode(n) == own + Walk(children);
    case Text =>
      assert WalkNode(n) == [];
    case Comment =>
      assert WalkNode(n) == [];
  }

  /**
   * For a forest without templates or document nodes, the tally holds for each name the
   * number of non-noise class tokens equal to it across all element descendants, and
   * every stored count is at least 1.
   */
  lemma PlainTreeTally(ns: seq<Node>, k: string)
    requires TrapFree(ns) && Plain(Descendants(ns))
    ensures TryGet(ClassNamesOfTree(ns), k) == Occurrences(ElementClassNames(Descendants(ns)), k)
    ensures forall i :: 0 <= i < |ClassNamesOfTree(ns)| ==> ClassNamesOfTree(ns)[i].value >= 1
  {
    PlainWalk(ns);
    TallyPositive(Walk(ns));
  }
}

=== FILE: int32parse.dfy ===
/**
 * `int.TryParse(s, out int result)` with its default `NumberStyles.Integer`: optional
 * leading and trailing white space (U+0009 to U+000D and the space), an optional `+` or
 * `-`, then one or more ASCII digits whose value fits in a 32-bit signed integer.
 */
module Int32Parse {
  import opened Wrappers

  const Int32Min: int := -0x8000_0000
  const Int32Max: int := 0x7FFF_FFFF

  /** The white space `NumberStyles.AllowLeadingWhite` and `AllowTrailingWhite` accept. */
  predicate IsNumberWhite(c: char)
  {
    '\t' <= c <= '\r' || c == ' '
  }

  predicate IsDigit(c: char)
  {
    '0' <= c <= '9'
  }

  predicate AllDigits(s: string)
  {
    forall i :: 0 <= i < |s| ==> IsDigit(s[i])
  }

  /** The value of a string of decimal digits, most significant first. */
  function DigitsValue(ds: string): nat
    requires AllDigits(ds)
  {
    if |ds| == 0 then 0
    else DigitsValue(ds[..|ds| - 1]) * 10 + (ds[|ds| - 1] as int - '0' as int)
  }

  /** `s` without its leading and trailing number white space. */
  function TrimNumberWhite(s: string): (r: string)
    ensures |r| <= |s|
    ensures |r| > 0 ==> !IsNumberWhite(r[0]) && !IsNumberWhite(r[|r| - 1])
    ensures (|s| == 0 || (!IsNumberWhite(s[0]) && !IsNumberWhite(s[|s| - 1]))) ==> r == s
    ensures |s| > 0 && !IsNumberWhite(s[0]) ==> |r| > 0 && r[0] == s[0]
    decreases |s|
  {
    if |s| == 0 then s
    else if IsNumberWhite(s[0]) then TrimNumberWhite(s[1..])
    else if IsNumberWhite(s[|s| - 1]) then TrimNumberWhite(s[..|s| - 1])
    else s
  }

  /** `int.TryParse`: the parsed value, or `None` where the call returns false. */
  function TryParse(s: string): (r: Option<int>)
    ensures r.Some? ==> Int32Min <= r.value <= Int32Max
  {
    var t := TrimNumberWhite(s);
    var negative := |t| > 0 && t[0] == '-';
    var body := if |t| > 0 && (t[0] == '-' || t[0] == '+') then t[1..] else t;
    if |body| == 0 || !AllDigits(body) then None
    else
      var magnitude: int := DigitsValue(body);
      var v := if negative then -magnitude else magnitude;
      if Int32Min <= v <= Int32Max then Some(v) else None
  }

  /** Decimal digits of a natural number, without leading zeros. */
  function ShowNat(n: nat): (r: string)
    ensures |r| > 0 && AllDigits(r)
  {
    var d := [(n % 10 + '0' as int) as char];
    if n < 10 then d else ShowNat(n / 10) + d
  }

  /** `int.ToString()` under the invariant culture. */
  function Show(n: int): (r: string)
    ensures |r| > 0
  {
    if n < 0 then "-" + ShowNat(-n) else ShowNat(n)
  }

  lemma {:induction false} DigitsValueShowNat(n: nat)
    ensures DigitsValue(ShowNat(n)) == n
  {
    var r := ShowNat(n);
    if n >= 10 {
      DigitsValueShowNat(n / 10);
      assert r[..|r| - 1] == ShowNat(n / 10);
    }
  }

  /**
   * Round trip: every 32-bit value, printed in decimal, parses back to itself; any other
   * integer, printed the same way, is rejected.
   */
  lemma ParseShow(n: int)
    ensures TryParse(Show(n)) == if Int32Min <= n <= Int32Max then Some(n) else None
  {
    if n < 0 {
      ParseShowNegative(n);
    } else {
      ParseShowNat(n);
    }
  }

  lemma ParseShowNat(n: nat)
    ensures TryParse(ShowNat(n)) == if n <= Int32Max then Some(n) else None
  {
    var s := ShowNat(n);
    DigitsValueShowNat(n);
    assert !IsNumberWhite(s[0]) && !IsNumberWhite(s[|s| - 1]);
    assert TrimNumberWhite(s) == s;
  }

  lemma ParseShowNegative(n: int)
    requires n < 0
    ensures TryParse(Show(n)) == if Int32Min <= n then Some(n) else None
  {
    var digits := ShowNat(-n);
    var s := "-" + digits;
    DigitsValueShowNat(-n);
    assert s[|s| - 1] == digits[|digits| - 1];
    assert TrimNumberWhite(s) == s;
    assert s[1..] == digits;
  }
}

=== FILE: js.dfy ===
/**
 * `JSExtensions.ClassNames`: class names given to view-model scripts by a
 * `className: "..."` property. The pattern `className:\s{1,}['"]([a-zA-Z0-9\-_\s]*)['"]`
 * is matched by hand: since neither a quote nor a capture character can end the white-space
 * run, and no capture character is a quote, the backtracking matcher's choices are forced,
 * so at each start position there is at most one match.
 */
module JSExtensions {
  import opened Wrappers
  import opened Strings
  import opened DictionaryExtensions

  const Key: string := "className:"

  predicate IsQuote(c: char)
  {
    c == '\'' || c == '"'
  }

  /** `[a-zA-Z0-9\-_\s]`. */
  predicate IsCaptureChar(c: char)
  {
    ('a' <= c <= 'z') || ('A' <= c <= 'Z') || ('0' <= c <= '9') || c == '-' || c == '_' || IsWhiteSpace(c)
  }

  /** Where a match of the pattern sits: the opening quote and the closing quote. */
  datatype Span = Span(open: nat, close: nat)

  /**
   * The reference semantics: the pattern matches at `p` with the opening quote at `e` and the
   * closing quote at `k`; the capture is `line[e + 1..k]`.
   */
  ghost predicate RegexMatch(line: string, p: int, e: int, k: int)
  {
    && 0 <= p && p + |Key| < e < k < |line|
    && line[p..p + |Key|] == Key
    && (forall i :: p + |Key| <= i < e ==> IsWhiteSpace(line[i]))
    && IsQuote(line[e])
    && (forall i :: e < i < k ==> IsCaptureChar(line[i]))
    && IsQuote(line[k])
  }

  /** The end of the longest white-space run starting at `j`. */
  function WhiteSpaceEnd(line: string, j: nat): (r: nat)
    requires j <= |line|
    ensures j <= r <= |line|
    ensures forall i :: j <= i < r ==> IsWhiteSpace(line[i])
    ensures r < |line| ==> !IsWhiteSpace(line[r])
    decreases |line| - j
  {
    if j == |line| || !IsWhiteSpace(line[j]) then j else WhiteSpaceEnd(line, j + 1)
  }

  /** The end of the longest run of capture characters starting at `j`. */
  function CaptureEnd(line: string, j: nat): (r: nat)
    requires j <= |line|
    ensures j <= r <= |line|
    ensures forall i :: j <= i < r ==> IsCaptureChar(line[i])
    ensures r < |line| ==> !IsCaptureChar(line[r])
    decreases |line| - j
  {
    if j == |line| || !IsCaptureChar(line[j]) then j else CaptureEnd(line, j + 1)
  }

  /** The match starting at `p`, if there is one. */
  function MatchAt(line: string, p: nat): (r: Option<Span>)
    ensures r.Some? ==> RegexMatch(line, p, r.value.open, r.value.close)
  {
    if p + |Key| <= |line| && line[p..p + |Key|] == Key then
      var e := WhiteSpaceEnd(line, p + |Key|);
      if e > p + |Key| && e < |line| && IsQuote(line[e]) then
        var k := CaptureEnd(line, e + 1);
        if k < |line| && IsQuote(line[k]) then Some(Span(e, k)) else None
      else None
    else None
  }

  lemma {:induction false} WhiteSpaceEndAt(line: string, j: nat, e: nat)
    requires j <= e < |line| && !IsWhiteSpace(line[e])
    requires forall i :: j <= i < e ==> IsWhiteSpace(line[i])
    ensures WhiteSpaceEnd(line, j) == e
    decreases e - j
  {
    if j < e { WhiteSpaceEndAt(line, j + 1, e); }
  }

  lemma {:induction false} CaptureEndAt(line: string, j: nat, k: nat)
    requires j <= k < |line| && !IsCaptureChar(line[k])
    requires forall i :: j <= i < k ==> IsCaptureChar(line[i])
    ensures CaptureEnd(line, j) == k
    decreases k - j
  {
    if j < k { CaptureEndAt(line, j + 1, k); }
  }

  /** The hand matcher finds exactly the matches of the pattern, in both directions. */
  lemma MatchAtIsRegexMatch(line: string, p: nat, e: nat, k: nat)
    ensures MatchAt(line, p) == Some(Span(e, k)) <==> RegexMatch(line, p, e, k)
  {
    if RegexMatch(line, p, e, k) {
      WhiteSpaceEndAt(line, p + |Key|, e);
      CaptureEndAt(line, e + 1, k);
    }
  }

  /** `Regex.Match`: the leftmost start position at or after `p` where the pattern matches. */
  function LeftmostMatch(line: string, p: nat): (r: Option<nat>)
    ensures r.Some? ==> p <= r.value && MatchAt(line, r.value).Some?
    ensures r.Some? ==> forall q :: p <= q < r.value ==> MatchAt(line, q).None?
    ensures r.None? ==> forall q :: p <= q ==> MatchAt(line, q).None?
    decreases |line| - p
  {
    if p + |Key| > |line| then None
    else if MatchAt(line, p).Some? then Some(p)
    else LeftmostMatch(line, p + 1)
  }

  /** `m.Groups[1].Value` of the line's first match, if the line matches at all. */
  function Capture(line: string): (r: Option<string>)
    ensures r.Some? ==> forall c :: c in r.value ==> IsCaptureChar(c)
  {
    match LeftmostMatch(line, 0)
    case None => None
    case Some(p) =>
      var span := MatchAt(line, p).value;
      Some(line[span.open + 1..span.close])
  }

  /**
   * A line that opens with `className:`, white space, a quote, capture characters and a quote
   * captures those characters, whatever follows. The two quotes need not be the same, and the
   * capture may be empty.
   */
  lemma FirstMatchCapture(ws: string, q1: char, body: string, q2: char, rest: string)
    requires |ws| > 0 && forall c :: c in ws ==> IsWhiteSpace(c)
    requires IsQuote(q1) && IsQuote(q2)
    requires forall c :: c in body ==> IsCaptureChar(c)
    ensures Capture(Key + ws + [q1] + body + [q2] + rest) == Some(body)
  {
    var line := Key + ws + [q1] + body + [q2] + rest;
    var e := |Key| + |ws|;
    var k := e + 1 + |body|;
    assert line[..|Key|] == Key;
    forall i | |Key| <= i < e ensures IsWhiteSpace(line[i]) {
      assert line[i] == ws[i - |Key|];
    }
    assert line[e] == q1;
    forall i | e < i < k ensures IsCaptureChar(line[i]) {
      assert line[i] == body[i - e - 1];
    }
    assert line[k] == q2;
    assert line[e + 1..k] == body;
    assert RegexMatch(line, 0, e, k);
    MatchAtIsRegexMatch(line, 0, e, k);
  }

  /** The names one line contributes: its capture, trimmed and split on the space character. */
  function LineClassNames(line: string): (r: seq<string>)
    ensures forall i :: 0 <= i < |r| ==> |r[i]| > 0 && ' ' !in r[i]
    ensures forall i, c :: 0 <= i < |r| && c in r[i] ==> IsCaptureChar(c)
    ensures Capture(line).None? ==> r == []
    ensures Capture(line).Some? ==> Concat(r) == Remove(Trim(Capture(line).value), ' ')
  {
    match Capture(line)
    case None => []
    case Some(captured) =>
      var r := Split(Trim(captured), ' ');
      SplitChars(Trim(captured), ' ');
      SplitKeepsEverythingButSeparators(Trim(captured), ' ');
      r
  }

  /** The names of all lines, in order. */
  function ScriptNames(lines: seq<string>): (r: seq<string>)
    ensures forall i :: 0 <= i < |r| ==> |r[i]| > 0 && ' ' !in r[i]
    ensures (forall j :: 0 <= j < |lines| ==> Capture(lines[j]).None?) ==> r == []
  {
    if |lines| == 0 then []
    else
      var a := LineClassNames(lines[0]);
      var b := ScriptNames(lines[1..]);
      assert forall i :: 0 <= i < |b| ==> (a + b)[|a| + i] == b[i];
      a + b
  }

  /** The names of a sequence of lines are those of its parts, one after the other. */
  lemma {:induction false} ScriptNamesAppend(a: seq<string>, b: seq<string>)
    ensures ScriptNames(a + b) == ScriptNames(a) + ScriptNames(b)
  {
    if |a| == 0 {
      assert a + b == b;
    } else {
      assert (a + b)[1..] == a[1..] + b;
      ScriptNamesAppend(a[1..], b);
    }
  }

  /** A single line contributes exactly its own names. */
  lemma ScriptNamesOne(line: string)
    ensures ScriptNames([line]) == LineClassNames(line)
  {
    assert [line][1..] == [];
    assert LineClassNames(line) + [] == LineClassNames(line);
  }

  /** `ClassNames(this IEnumerable<string> lines)`: the tally of every line's names. */
  function ScriptClassNames(lines: seq<string>): (r: seq<Entry<int>>)
    ensures DistinctKeys(r)
    ensures forall k :: TryGet(r, k) == Occurrences(ScriptNames(lines), k)
  {
    Tally(ScriptNames(lines))
  }

  /** A line on which the pattern matches nowhere contributes nothing. */
  lemma NoMatchNoNames(line: string)
    requires forall p: nat, e, k :: !RegexMatch(line, p, e, k)
    ensures LineClassNames(line) == []
  {
    match LeftmostMatch(line, 0)
    case None =>
    case Some(p) =>
      var span := MatchAt(line, p).value;
      MatchAtIsRegexMatch(line, p, span.open, span.close);
  }
}

=== FILE: lazyregex.dfy ===
/**
 * The two lazy, delimited regular-expression replacements of the extractors:
 * `Regex.Replace(s, "<%.+?%>", " ")` (embedded template code) and
 * `Regex.Replace(c, "\\[.+?\\]", "")` (attribute selectors). Both have the shape
 * OPEN, then one or more characters other than a line feed taken lazily, then CLOSE.
 * .NET scans left to right, replaces the leftmost match and resumes after it.
 */
module LazyRegex {
  import opened Wrappers

  /** `close` occurs in `s` starting at `c`. */
  predicate ClosesAt(s: string, close: string, c: int)
  {
    0 <= c && c + |close| <= |s| && s[c..c + |close|] == close
  }

  /**
   * The reference semantics: `open .+? close` matches `s[i..e]`. `.` is any character but
   * '\n'; the lazy quantifier takes the shortest body (at least one character) after which
   * `close` follows.
   */
  ghost predicate LazyMatch(s: string, open: string, close: string, i: int, e: int)
  {
    && 0 <= i && i + |open| + 1 + |close| <= e <= |s|
    && s[i..i + |open|] == open
    && ClosesAt(s, close, e - |close|)
    && (forall m :: i + |open| <= m < e - |close| ==> s[m] != '\n')
    && (forall c :: i + |open| + 1 <= c < e - |close| ==> !ClosesAt(s, close, c))
  }

  /** The first `close` at or after `j`, provided no line feed comes before it. */
  function FindClose(s: string, close: string, j: nat): (r: Option<nat>)
    requires |close| > 0
    ensures r.Some? ==> j <= r.value && ClosesAt(s, close, r.value)
    ensures r.Some? ==> forall c :: j <= c < r.value ==> s[c] != '\n' && !ClosesAt(s, close, c)
    decreases |s| - j
  {
    if j + |close| > |s| then None
    else if s[j..j + |close|] == close then Some(j)
    else if s[j] == '\n' then None
    else FindClose(s, close, j + 1)
  }

  /** The end of the match that starts at `i`, if one does. */
  function MatchAt(s: string, open: string, close: string, i: nat): (r: Option<nat>)
    requires |open| > 0 && |close| > 0
    ensures r.Some? ==> i + |open| + 1 + |close| <= r.value <= |s|
  {
    if i + |open| < |s| && s[i..i + |open|] == open && s[i + |open|] != '\n' then
      match FindClose(s, close, i + |open| + 1)
      case Some(c) => Some(c + |close|)
      case None => None
    else None
  }

  /** A `close` that is the first one after `j`, with no line feed before it, is the one found. */
  lemma {:induction false} FindCloseFinds(s: string, close: string, j: nat, c: nat)
    requires |close| > 0 && j <= c && ClosesAt(s, close, c)
    requires forall m :: j <= m < c ==> s[m] != '\n' && !ClosesAt(s, close, m)
    ensures FindClose(s, close, j) == Some(c)
    decreases c - j
  {
    if j < c {
      assert !ClosesAt(s, close, j);
      FindCloseFinds(s, close, j + 1, c);
    }
  }

  /** The scanner agrees with the reference semantics, in both directions. */
  lemma MatchAtIsLazyMatch(s: string, open: string, close: string, i: nat, e: int)
    requires |open| > 0 && |close| > 0
    ensures MatchAt(s, open, close, i) == Some(e) <==> LazyMatch(s, open, close, i, e)
  {
    if LazyMatch(s, open, close, i, e) {
      FindCloseFinds(s, close, i + |open| + 1, e - |close|);
    }
  }

  /**
   * `Regex.Replace(s, open + ".+?" + close, repl)`: the leftmost match is replaced and the
   * scan resumes right after it; where no match starts, one character is kept. The patterns
   * have no anchors or look-behind, so a match starting at `i` of `s` is a match starting at
   * 0 of `s[i..]`, and the scan can be written on the remaining text.
   */
  function Replace(s: string, open: string, close: string, repl: string): (r: string)
    requires |open| > 0 && |close| > 0
    ensures |repl| <= |open| + 1 + |close| ==> |r| <= |s|
    ensures |s| == 0 ==> r == []
    decreases |s|
  {
    if |s| == 0 then []
    else
      match MatchAt(s, open, close, 0)
      case Some(e) => repl + Replace(s[e..], open, close, repl)
      case None => [s[0]] + Replace(s[1..], open, close, repl)
  }

  /** The replacement is made of characters of the text and of `repl`, nothing else. */
  lemma {:induction false} ReplaceChars(s: string, open: string, close: string, repl: string)
    requires |open| > 0 && |close| > 0
    ensures forall c :: c in Replace(s, open, close, repl) ==> c in s || c in repl
    decreases |s|
  {
    if |s| > 0 {
      match MatchAt(s, open, close, 0)
      case Some(e) =>
        ReplaceChars(s[e..], open, close, repl);
        assert forall c :: c in s[e..] ==> c in s;
      case None =>
        ReplaceChars(s[1..], open, close, repl);
        assert forall c :: c in s[1..] ==> c in s;
    }
  }

  /** Where a lazy match starts the text, it becomes `repl` and the scan resumes after it. */
  lemma ReplaceMatch(s: string, open: string, close: string, repl: string, e: int)
    requires |open| > 0 && |close| > 0 && LazyMatch(s, open, close, 0, e)
    ensures Replace(s, open, close, repl) == repl + Replace(s[e..], open, close, repl)
  {
    MatchAtIsLazyMatch(s, open, close, 0, e);
  }

  /** Where no lazy match starts the text, its first character is kept. */
  lemma ReplaceNoMatch(s: string, open: string, close: string, repl: string)
    requires |open| > 0 && |close| > 0 && |s| > 0
    requires forall e :: !LazyMatch(s, open, close, 0, e)
    ensures Replace(s, open, close, repl) == [s[0]] + Replace(s[1..], open, close, repl)
  {
    if MatchAt(s, open, close, 0).Some? {
      MatchAtIsLazyMatch(s, open, close, 0, MatchAt(s, open, close, 0).value);
    }
  }

  /** A first character that cannot start `open` is kept. */
  lemma ReplaceKeepsHead(s: string, open: string, close: string, repl: string)
    requires |open| > 0 && |close| > 0 && |s| > 0 && s[0] != open[0]
    ensures Replace(s, open, close, repl) == [s[0]] + Replace(s[1..], open, close, repl)
  {
    if |open| < |s| {
      assert s[0..|open|][0] == s[0];
    }
  }

  /** Text that never starts `open` is copied in front of the replacement of what follows. */
  lemma {:induction false} ReplaceKeepsPrefix(x: string, rest: string, open: string, close: string, repl: string)
    requires |open| > 0 && |close| > 0 && open[0] !in x
    ensures Replace(x + rest, open, close, repl) == x + Replace(rest, open, close, repl)
    decreases |x|
  {
    if |x| == 0 {
      assert x + rest == rest;
    } else {
      var s := x + rest;
      assert s[0] == x[0] && s[1..] == x[1..] + rest;
      ReplaceKeepsHead(s, open, close, repl);
      ReplaceKeepsPrefix(x[1..], rest, open, close, repl);
      assert x == [x[0]] + x[1..];
    }
  }

  /**
   * A delimited group at the start. The body is non-empty and has no line feed, and `close`
   * does not start anywhere in it after its first character, so the lazy match ends at the
   * `close` that follows the body.
   */
  lemma ReplaceGroupAtStart(open: string, b: string, close: string, c: string, repl: string)
    requires |open| > 0 && |close| > 0
    requires |b| > 0 && '\n' !in b && close[0] !in b[1..]
    ensures Replace(open + b + close + c, open, close, repl) == repl + Replace(c, open, close, repl)
  {
    var s := open + b + close + c;
    var k, e := |open|, |open| + |b| + |close|;
    assert s[0..k] == open;
    assert s[e - |close|..e] == close;
    forall m | k <= m < e - |close| ensures s[m] == b[m - k] { }
    forall m | k + 1 <= m < e - |close| ensures !ClosesAt(s, close, m) {
      assert s[m..m + |close|][0] == s[m] == b[1..][m - k - 1] != close[0];
    }
    assert LazyMatch(s, open, close, 0, e);
    ReplaceMatch(s, open, close, repl, e);
    assert s[e..] == c;
  }

  /**
   * One delimited group after text that never starts `open`: the text is kept, the group
   * becomes `repl`, and the rest is replaced on its own.
   */
  lemma ReplaceGroup(a: string, open: string, b: string, close: string, c: string, repl: string)
    requires |open| > 0 && |close| > 0 && open[0] !in a
    requires |b| > 0 && '\n' !in b && close[0] !in b[1..]
    ensures Replace(a + (open + b + close + c), open, close, repl) == a + (repl + Replace(c, open, close, repl))
  {
    ReplaceGroupAtStart(open, b, close, c, repl);
    ReplaceKeepsPrefix(a, open + b + close + c, open, close, repl);
  }

  /** In particular, a string without the first character of `open` is left as it is. */
  lemma ReplaceWithoutOpen(s: string, open: string, close: string, repl: string)
    requires |open| > 0 && |close| > 0
    ensures open[0] !in s ==> Replace(s, open, close, repl) == s
  {
    if open[0] !in s {
      ReplaceKeepsPrefix(s, [], open, close, repl);
      assert s + [] == s;
    }
  }
}

=== FILE: scenarios.dfy ===
/**
 * Worked examples of the extractors and counter operations. Each is stated for arbitrary
 * ordinary names rather than one literal, so every literal example is an instance.
 */
module Scenarios {
  import opened Wrappers
  import opened Strings
  import opened DictionaryExtensions
  import opened HtmlExtensions
  import opened JSExtensions
  import opened StylesheetExtractor
  import LazyRegex

  /** A name with none of the characters the stylesheet pipeline cuts at or trims. */
  predicate PlainCssName(a: string)
  {
    |a| > 0 && '.' !in a && ':' !in a && '[' !in a && ',' !in a
  }

  lemma CleanPlainName(a: string, rest: string)
    requires PlainCssName(a)
    requires rest == [] || rest[0] == ':'
    ensures CleanName(a + rest) == a
  {
    if rest == [] {
      assert a + rest == a;
      assert IndexOf(a, ':') == |a|;
    } else {
      IndexOfAfterFree(a, rest, ':');
    }
    assert (a + rest)[..|a|] == a;
    LazyRegex.ReplaceWithoutOpen(a, "[", "]", "");
    assert a[|a| - 1] in a;
  }

  /** The selector text `.a.tail` splits at its two dots into `a` and `tail`. */
  lemma SplitCompound(a: string, tail: string)
    requires PlainCssName(a) && |tail| > 0 && '.' !in tail
    ensures Split(['.'] + a + ['.'] + tail, '.') == [a, tail]
  {
    assert ['.'] + a + ['.'] + tail == [] + ['.'] + (a + ['.'] + tail);
    SplitAt([], '.', a + ['.'] + tail);
    SplitAt(a, '.', tail);
    SplitWhole(tail, '.');
  }

  lemma CleanCompound(a: string, b: string, pseudo: string)
    requires PlainCssName(a) && PlainCssName(b)
    ensures CleanNames([a, b + [':'] + pseudo]) == [a, b]
  {
    CleanPlainName(a, []);
    assert a + [] == a;
    CleanPlainName(b, [':'] + pseudo);
    assert b + ([':'] + pseudo) == b + [':'] + pseudo;
  }

  /**
   * A compound selector `.a.b:pseudo` yields `a` and `b`; the pseudo-class part, and any
   * attribute selector inside it, is cut off. `.btn.active:hover[disabled]` is the instance
   * a = `btn`, b = `active`, pseudo = `hover[disabled]`.
   */
  lemma CompoundSelector(a: string, b: string, pseudo: string)
    requires PlainCssName(a) && PlainCssName(b) && '.' !in pseudo
    ensures CssNames([Token(SelectorOrStyleProperty, ['.'] + a + ['.'] + b + [':'] + pseudo)]) == [a, b]
  {
    var tail := b + [':'] + pseudo;
    var v := ['.'] + a + ['.'] + tail;
    assert v == ['.'] + a + ['.'] + b + [':'] + pseudo;
    assert '.' !in tail;
    SplitCompound(a, tail);
    CleanCompound(a, b, pseudo);
    var t := Token(SelectorOrStyleProperty, v);
    assert IsClassSelector(t);
    assert TokenNames(t) == [a, b];
    assert CssNames([t]) == TokenNames(t) + CssNames([]);
  }

  lemma TwoNames(a: string, b: string)
    requires a != b
    ensures Occurrences([a, b], a) == 1 && Occurrences([a, b], b) == 1
    ensures (set n | n in [a, b]) == {a, b}
  {
    assert [a, b][1..] == [b];
    assert [b][1..] == [];
  }

  /** With `a` and `b` different, the sorted stylesheet tally is exactly `{a: 1, b: 1}`. */
  lemma CompoundSelectorTally(a: string, b: string, pseudo: string)
    requires PlainCssName(a) && PlainCssName(b) && '.' !in pseudo && a != b
    ensures var r := ClassNamesFromCss([Token(SelectorOrStyleProperty, ['.'] + a + ['.'] + b + [':'] + pseudo)]);
      Keys(r) == {a, b} && TryGet(r, a) == 1 && TryGet(r, b) == 1
  {
    var t := [Token(SelectorOrStyleProperty, ['.'] + a + ['.'] + b + [':'] + pseudo)];
    CompoundSelector(a, b, pseudo);
    TwoNames(a, b);
    var r := ClassNamesFromCss(t);
    assert Keys(r) == set n | n in CssNames(t);
    assert TryGet(r, a) == Occurrences(CssNames(t), a);
    assert TryGet(r, b) == Occurrences(CssNames(t), b);
  }

  /** `.[x]`: the attribute selector is removed whole, leaving an empty class name. */
  lemma BracketOnlySelector(x: char)
    requires x != '\n' && x != '.' && x != ':'
    ensures CssNames([Token(SelectorOrStyleProperty, ['.', '[', x, ']'])]) == [""]
  {
    var v := ['.', '[', x, ']'];
    var piece := ['[', x, ']'];
    assert Split(v, '.') == [piece] by {
      assert v == [] + ['.'] + piece;
      SplitAt([], '.', piece);
      SplitWhole(piece, '.');
    }
    assert CleanName(piece) == "" by {
      assert IndexOf(piece, ':') == 3;
      assert CutPseudoClass(piece) == piece;
      BracketGroupRemoved(x);
    }
    assert TokenNames(Token(SelectorOrStyleProperty, v)) == [""];
  }

  lemma BracketGroupRemoved(x: char)
    requires x != '\n'
    ensures RemoveAttributeSelectors(['[', x, ']']) == []
  {
    assert ['[', x, ']'] == [] + ("[" + [x] + "]" + []);
    RemoveOneAttributeSelector([], [x], []);
    assert RemoveAttributeSelectors([]) == [];
  }

  /** Two space-free names joined by one space are trimmed to themselves and split apart. */
  lemma TwoTokens(a: string, b: string)
    requires |a| > 0 && |b| > 0 && ' ' !in a && ' ' !in b
    requires !IsWhiteSpace(a[0]) && !IsWhiteSpace(b[|b| - 1])
    ensures Split(Trim(a + " " + b), ' ') == [a, b]
  {
    var body := a + " " + b;
    assert body[0] == a[0] && body[|body| - 1] == b[|b| - 1];
    assert Trim(body) == body;
    assert Join([a, b], ' ') == body;
    SplitJoin([a, b], ' ');
  }

  /** A script line `className: 'a b'` contributes `a` and `b`. */
  lemma ScriptLineWithTwoNames(a: string, b: string)
    requires |a| > 0 && |b| > 0
    requires forall c :: c in a ==> IsCaptureChar(c) && !IsWhiteSpace(c)
    requires forall c :: c in b ==> IsCaptureChar(c) && !IsWhiteSpace(c)
    ensures LineClassNames(Key + " '" + a + " " + b + "'") == [a, b]
  {
    var body := a + " " + b;
    assert Key + " '" + a + " " + b + "'" == Key + " '" + body + "'";
    forall c | c in body ensures IsCaptureChar(c) {
      assert c in a || c == ' ' || c in b;
    }
    assert Key + " '" + body + "'" == Key + " " + ['\''] + body + ['\''] + [];
    FirstMatchCapture(" ", '\'', body, '\'', []);
    assert a[0] in a && b[|b| - 1] in b;
    TwoTokens(a, b);
  }

  /** With `a` and `b` different, the line's tally is `{a: 1, b: 1}`. */
  lemma ScriptLineTally(a: string, b: string)
    requires |a| > 0 && |b| > 0 && a != b
    requires forall c :: c in a ==> IsCaptureChar(c) && !IsWhiteSpace(c)
    requires forall c :: c in b ==> IsCaptureChar(c) && !IsWhiteSpace(c)
    ensures var r := ScriptClassNames([Key + " '" + a + " " + b + "'"]);
      Keys(r) == {a, b} && TryGet(r, a) == 1 && TryGet(r, b) == 1
  {
    var lines := [Key + " '" + a + " " + b + "'"];
    ScriptLineWithTwoNames(a, b);
    ScriptNamesOne(lines[0]);
    TwoNames(a, b);
    assert Keys(Tally([a, b])) == set n | n in [a, b];
  }

  predicate KeyAt(line: string, p: nat)
  {
    p + |Key| <= |line| && line[p..p + |Key|] == Key
  }

  /** `className` must be spelled exactly: a line where it never occurs contributes nothing. */
  lemma ScriptLineWithoutKey(line: string)
    requires forall p :: 0 <= p ==> !KeyAt(line, p)
    ensures LineClassNames(line) == []
  {
    forall p: nat, e, k ensures !RegexMatch(line, p, e, k) {
      assert !KeyAt(line, p);
    }
    NoMatchNoNames(line);
  }

  /**
   * An ordinary markup class name: it starts with a letter (so it is not noise) and holds no
   * space and no template code; and it is not the debug token.
   */
  predicate PlainClassName(x: string)
  {
    |x| > 0 && ('a' <= x[0] <= 'z' || 'A' <= x[0] <= 'Z') && ' ' !in x && '<' !in x && x != DebugTrap
  }

  lemma ClassAttribute(ts: seq<string>)
    requires |ts| > 0 && forall i :: 0 <= i < |ts| ==> |ts[i]| > 0 && ' ' !in ts[i] && '<' !in ts[i]
    ensures AttributeClassNames(Attribute("class", Join(ts, ' '))) == ts
  {
    JoinChars(ts, ' ');
    LazyRegex.ReplaceWithoutOpen(Join(ts, ' '), "<%", "%>", " ");
    SplitJoin(ts, ' ');
  }

  /** `x <%= y %> z`: the embedded code is blanked out and the names around it remain. */
  lemma ErbInClassAttribute(x: string, y: string, z: string)
    requires PlainClassName(x) && PlainClassName(z) && '\n' !in y && '%' !in y
    ensures AttributeClassNames(Attribute("class", x + " <%= " + y + " %> " + z)) == [x, z]
  {
    var stripped := x + [' '] + ([] + [' '] + ([] + [' '] + z));
    assert StripErb(x + " <%= " + y + " %> " + z) == stripped by {
      ErbBlanked(x, y, z);
    }
    assert Split(stripped, ' ') == [x, z] by {
      SplitAt(x, ' ', [] + [' '] + ([] + [' '] + z));
      SplitAt([], ' ', [] + [' '] + z);
      SplitAt([], ' ', z);
      SplitWhole(z, ' ');
    }
  }

  lemma ErbBlanked(x: string, y: string, z: string)
    requires '<' !in x && '<' !in z && '\n' !in y && '%' !in y
    ensures StripErb(x + " <%= " + y + " %> " + z) == x + [' '] + ([] + [' '] + ([] + [' '] + z))
  {
    var b := "= " + y + " ";
    assert x + " <%= " + y + " %> " + z == (x + " ") + ("<%" + b + "%>" + (" " + z));
    assert '<' !in x + " " && '%' !in b[1..];
    StripOneErbGroup(x + " ", b, " " + z);
    assert '<' !in " " + z;
    assert (x + " ") + (" " + (" " + z)) == x + [' '] + ([] + [' '] + ([] + [' '] + z));
  }

  lemma {:induction false} JoinChars(ts: seq<string>, sep: char)
    ensures forall c :: c in Join(ts, sep) ==> c == sep || exists i :: 0 <= i < |ts| && c in ts[i]
  {
    if |ts| > 1 {
      JoinChars(ts[1..], sep);
      forall c | c in Join(ts, sep) ensures c == sep || exists i :: 0 <= i < |ts| && c in ts[i] {
        if c in Join(ts[1..], sep) && c != sep {
          var i :| 0 <= i < |ts[1..]| && c in ts[1..][i];
          assert c in ts[i + 1];
        }
      }
    }
  }

  lemma {:induction false} PlainNamesKept(ts: seq<string>)
    requires forall i :: 0 <= i < |ts| ==> PlainClassName(ts[i])
    ensures WithoutNoise(ts) == ts
  {
    if |ts| > 0 {
      LetterStartIsNotNoise(ts[0]);
      PlainNamesKept(ts[1..]);
    }
  }

  /** A single `class` attribute holding the plain names `ts`, space-separated. */
  function ClassList(ts: seq<string>): seq<Attribute>
  {
    [Attribute("class", Join(ts, ' '))]
  }

  lemma ClassListNames(ts: seq<string>)
    requires |ts| > 0 && forall i :: 0 <= i < |ts| ==> PlainClassName(ts[i])
    ensures AttributesClassNames(ClassList(ts)) == ts
    ensures TypeAttribute(ClassList(ts)).None?
  {
    ClassAttribute(ts);
    PlainNamesKept(ts);
    OneAttribute(Attribute("class", Join(ts, ' ')));
    ClassListUntyped(ts);
  }

  lemma ClassListUntyped(ts: seq<string>)
    ensures TypeAttribute(ClassList(ts)).None?
  {
    assert |ToLowerAscii("class")| == 5;
    assert ClassList(ts)[1..] == [];
  }

  /** An element with plain class names and no template: its own names, then its children's. */
  lemma PlainElementWalk(name: string, ts: seq<string>, children: seq<Node>)
    requires |ts| > 0 && forall i :: 0 <= i < |ts| ==> PlainClassName(ts[i])
    requires TrapFree(children)
    ensures TrapFreeNode(Element(name, ClassList(ts), children, []))
    ensures WalkNode(Element(name, ClassList(ts), children, [])) == ts + Walk(children)
  {
    var n := Element(name, ClassList(ts), children, []);
    ClassListNames(ts);
    assert !IsScriptTemplate(n);
    assert DebugTrap !in ts by {
      forall i | 0 <= i < |ts| ensures ts[i] != DebugTrap { assert PlainClassName(ts[i]); }
    }
    assert TrapFreeNode(n);
    assert NodeClassNames(n) == AttributesClassNames(n.attributes);
    ElementWalk(n);
  }

  /** One unfolding of `WalkNode` for an element, shared by the element and template walks. */
  lemma ElementWalk(n: Node)
    requires TrapFreeNode(n) && n.Element?
    ensures WalkNode(n) == NodeClassNames(n) + Walk(n.children)
  {
  }

  lemma SingleWalk(n: Node)
    requires TrapFreeNode(n)
    ensures TrapFree([n]) && Walk([n]) == WalkNode(n)
  {
    assert [n][1..] == [];
  }

  lemma NestedCounts(x: string, y: string)
    requires x != y
    ensures Occurrences([x, y, x], x) == 2 && Occurrences([x, y, x], y) == 1
    ensures (set n | n in [x, y, x]) == {x, y}
  {
    assert [x, y, x][1..] == [y, x];
    assert [y, x][1..] == [x];
    assert [x][1..] == [];
  }

  /**
   * `<div class="x y"><div class="x"></div></div>` yields `{x: 2, y: 1}`: every element
   * descendant is visited once.
   */
  lemma NestedElements(name: string, x: string, y: string)
    requires PlainClassName(x) && PlainClassName(y) && x != y
    ensures var tree := [Element(name, ClassList([x, y]), [Element(name, ClassList([x]), [], [])], [])];
      TrapFree(tree)
      && Keys(ClassNamesOfTree(tree)) == {x, y}
      && TryGet(ClassNamesOfTree(tree), x) == 2
      && TryGet(ClassNamesOfTree(tree), y) == 1
  {
    var inner := Element(name, ClassList([x]), [], []);
    var outer := Element(name, ClassList([x, y]), [inner], []);
    assert TrapFree([outer]) && Walk([outer]) == [x, y, x] by {
      PlainElementWalk(name, [x], []);
      SingleWalk(inner);
      PlainElementWalk(name, [x, y], [inner]);
      SingleWalk(outer);
    }
    NestedCounts(x, y);
  }

  /**
   * `class="x != 3 @z y"` yields only `x` and `y`: the operator, the number and the `@`
   * token are noise. The number is any 32-bit integer `n`, written as the runtime prints it.
   */
  lemma NoiseTokensAreDropped(x: string, y: string, n: int, z: string)
    requires PlainClassName(x) && PlainClassName(y) && ' ' !in z && '<' !in z
    requires Int32Parse.Int32Min <= n <= Int32Parse.Int32Max
    ensures AttributesClassNames([Attribute("class", Join([x, "!=", Int32Parse.Show(n), "@" + z, y], ' '))]) == [x, y]
  {
    var number := Int32Parse.Show(n);
    var ts := [x, "!=", number, "@" + z, y];
    NoisySplit(ts);
    NumberIsNoise(n);
    NoisyFilter(x, number, z, y);
    OneAttribute(Attribute("class", Join(ts, ' ')));
  }

  lemma NumberIsNoise(n: int)
    requires Int32Parse.Int32Min <= n <= Int32Parse.Int32Max
    ensures IsNoise(Int32Parse.Show(n))
  {
    Int32Parse.ParseShow(n);
  }

  lemma OneAttribute(a: Attribute)
    ensures AttributesClassNames([a]) == WithoutNoise(AttributeClassNames(a))
  {
    assert [a][1..] == [];
  }

  lemma NoisySplit(ts: seq<string>)
    requires |ts| == 5 && PlainClassName(ts[0]) && PlainClassName(ts[4])
    requires ts[1] == "!=" && ' ' !in ts[2] && '<' !in ts[2] && |ts[2]| > 0
    requires |ts[3]| > 0 && ts[3][0] == '@' && ' ' !in ts[3] && '<' !in ts[3]
    ensures AttributeClassNames(Attribute("class", Join(ts, ' '))) == ts
  {
    assert ' ' !in ts[1] && '<' !in ts[1];
    ClassAttribute(ts);
  }

  lemma NoisyFilter(x: string, number: string, z: string, y: string)
    requires PlainClassName(x) && PlainClassName(y) && IsNoise(number)
    ensures WithoutNoise([x, "!=", number, "@" + z, y]) == [x, y]
  {
    LetterStartIsNotNoise(x);
    LetterStartIsNotNoise(y);
    var noise := ["!=", number, "@" + z];
    MiddleIsNoise(number, z);
    FilterNoise(x, noise, y);
    assert [x] + [y] == [x, y];
    assert [x] + (["!=", number, "@" + z] + [y]) == [x, "!=", number, "@" + z, y];
  }

  lemma MiddleIsNoise(number: string, z: string)
    requires IsNoise(number)
    ensures forall i :: 0 <= i < 3 ==> IsNoise(["!=", number, "@" + z][i])
  {
    OperatorAndAtAreNoise(z);
  }

  /** Between two kept names, a run of noise tokens vanishes. */
  lemma FilterNoise(a: string, noise: seq<string>, e: string)
    requires !IsNoise(a) && !IsNoise(e)
    requires forall i :: 0 <= i < |noise| ==> IsNoise(noise[i])
    ensures WithoutNoise([a] + (noise + [e])) == [a] + [e]
  {
    KeptBeforeNoise(a, noise, e);
    KeptAlone(e);
  }

  lemma KeptBeforeNoise(a: string, noise: seq<string>, e: string)
    requires !IsNoise(a)
    requires forall i :: 0 <= i < |noise| ==> IsNoise(noise[i])
    ensures WithoutNoise([a] + (noise + [e])) == [a] + WithoutNoise([e])
  {
    DropAllNoise(noise, [e]);
    KeepName(a, noise + [e]);
  }

  lemma KeptAlone(e: string)
    requires !IsNoise(e)
    ensures WithoutNoise([e]) == [e]
  {
    KeepName(e, []);
    assert [e] + [] == [e];
  }

  lemma {:induction false} DropAllNoise(noise: seq<string>, rest: seq<string>)
    requires forall i :: 0 <= i < |noise| ==> IsNoise(noise[i])
    ensures WithoutNoise(noise + rest) == WithoutNoise(rest)
  {
    if |noise| > 0 {
      assert noise + rest == [noise[0]] + (noise[1..] + rest);
      DropNoise(noise[0], noise[1..] + rest);
      DropAllNoise(noise[1..], rest);
    } else {
      assert noise + rest == rest;
    }
  }

  lemma OperatorAndAtAreNoise(z: string)
    ensures IsNoise("!=") && IsNoise("@" + z)
  {
    assert StartsWith("@" + z, "@");
  }

  lemma DropNoise(t: string, ts: seq<string>)
    requires IsNoise(t)
    ensures WithoutNoise([t] + ts) == WithoutNoise(ts)
  {
    assert ([t] + ts)[1..] == ts;
  }

  lemma KeepName(t: string, ts: seq<string>)
    requires !IsNoise(t)
    ensures WithoutNoise([t] + ts) == [t] + WithoutNoise(ts)
  {
    assert ([t] + ts)[1..] == ts;
  }

  lemma TallyOne(x: string)
    ensures Tally([x]) == [Entry(x, 1)]
  {
    assert TryGet([], x) == 0;
    assert AppendCount([], x) == [Entry(x, 1)];
    assert [x][1..] == [];
    assert AppendAll([], [x]) == AppendAll(AppendCount([], x), []);
  }

  lemma ReplayOne(x: string)
    ensures Replay([Entry(x, 1)]) == [x]
  {
    assert Repeat(x, 0) == [];
    assert Repeat(x, 1) == [x];
    assert [Entry(x, 1)][1..] == [];
  }

  /** The attributes `type="text/template"`. */
  const TemplateType: seq<Attribute> := [Attribute("type", "text/template")]

  lemma TemplateTypeIsTemplate(inner: seq<Node>)
    ensures IsScriptTemplate(Element("script", TemplateType, [Text], inner))
  {
    assert "text/template" != "text/javascript" by {
      assert "text/template"[5] != "text/javascript"[5];
    }
    ScriptLowered();
    TemplateTypeFound();
  }

  /**
   * The two literal lookups a template test makes, each in its own lemma: proving them
   * inside `TemplateTypeIsTemplate` makes that proof too expensive for the solver.
   */
  lemma ScriptLowered()
    ensures ToLowerAscii("script") == "script"
  {
  }

  lemma TemplateTypeFound()
    ensures TypeAttribute(TemplateType) == Some("text/template")
  {
    assert ToLowerAscii("type") == "type";
  }

  lemma TemplateTypeHasNoClass()
    ensures AttributesClassNames(TemplateType) == []
  {
    assert "type" != "class" by { assert |"type"| != |"class"|; }
  }

  /**
   * `<script type="text/template"><div class="x"></div></script>` yields `{x: 1}`: the
   * template's inner markup is walked and replayed into the outer tally.
   */
  lemma TemplateBlock(x: string)
    requires PlainClassName(x)
    ensures var tree := [Element("script", TemplateType, [Text], [Element("div", ClassList([x]), [], [])])];
      TrapFree(tree)
      && Keys(ClassNamesOfTree(tree)) == {x}
      && TryGet(ClassNamesOfTree(tree), x) == 1
  {
    var script := TemplateScript(x);
    TemplateWalk(x);
    SingleWalk(script);
    OneName([script], x);
  }

  /** The markup `<script type="text/template"><div class="x"></div></script>`. */
  function TemplateScript(x: string): Node
  {
    Element("script", TemplateType, [Text], [Element("div", ClassList([x]), [], [])])
  }

  lemma TemplateTrapFree(x: string)
    requires PlainClassName(x)
    ensures TrapFreeNode(TemplateScript(x))
    ensures TrapFree(TemplateScript(x).inner) && Walk(TemplateScript(x).inner) == [x]
  {
    var div := Element("div", ClassList([x]), [], []);
    PlainElementWalk("div", [x], []);
    SingleWalk(div);
    TemplateTypeHasNoClass();
    TextWalk();
    assert TrapFreeNode(Element("script", TemplateType, [Text], [div]));
  }

  lemma TemplateNodeNames(x: string)
    requires PlainClassName(x)
    ensures TrapFreeNode(TemplateScript(x)) && NodeClassNames(TemplateScript(x)) == [x]
  {
    var n := TemplateScript(x);
    TemplateTrapFree(x);
    TemplateTypeIsTemplate(n.inner);
    assert NodeClassNames(n) == Replay(ClassNamesOfTree(n.inner)) + AttributesClassNames(n.attributes);
    TemplateTypeHasNoClass();
    TallyOne(x);
    ReplayOne(x);
    assert [x] + [] == [x];
  }

  lemma TemplateWalk(x: string)
    requires PlainClassName(x)
    ensures TrapFreeNode(TemplateScript(x)) && WalkNode(TemplateScript(x)) == [x]
  {
    TemplateNodeNames(x);
    ElementWalk(TemplateScript(x));
    TextWalk();
  }

  lemma TextWalk()
    ensures TrapFree([Text]) && Walk([Text]) == []
  {
    assert TrapFreeNode([Text][0]);
    assert [Text][1..] == [];
  }

  /** A forest whose walk yields the one name `x` is tallied as `{x: 1}`. */
  lemma OneName(tree: seq<Node>, x: string)
    requires TrapFree(tree) && Walk(tree) == [x]
    ensures Keys(ClassNamesOfTree(tree)) == {x} && TryGet(ClassNamesOfTree(tree), x) == 1
  {
    assert [x][1..] == [];
    assert (set n | n in [x]) == {x};
  }

  lemma TwoEntries(a: string, p: int, b: string, q: int)
    requires a != b
    ensures DistinctKeys([Entry(a, p), Entry(b, q)])
    ensures Keys([Entry(a, p), Entry(b, q)]) == {a, b}
    ensures TryGet([Entry(a, p), Entry(b, q)], a) == p && TryGet([Entry(a, p), Entry(b, q)], b) == q
  {
    var d := [Entry(a, p), Entry(b, q)];
    assert d[1..] == [Entry(b, q)];
    assert d[1..][1..] == [];
    assert Keys(d[1..]) == {b};
    assert Find(d, b) == Find(d[1..], b) == Some(q);
  }

  /**
   * `{a: 2, b: 1}` joined with `{b: 3, c: 1}` is `{a: (2, 0), b: (1, 3), c: (0, 1)}`, here for
   * any three different keys and any counts.
   */
  lemma JoinExample(a: string, b: string, c: string, p: int, q: int, r: int, s: int)
    requires a != b && b != c && a != c
    ensures var j := OuterJoin([Entry(a, p), Entry(b, q)], [Entry(b, r), Entry(c, s)]);
      && Keys(j) == {a, b, c}
      && Find(j, a) == Some(Pair(p, 0))
      && Find(j, b) == Some(Pair(q, r))
      && Find(j, c) == Some(Pair(0, s))
  {
    var left, right := [Entry(a, p), Entry(b, q)], [Entry(b, r), Entry(c, s)];
    TwoEntries(a, p, b, q);
    TwoEntries(b, r, c, s);
    OuterJoinFind(left, right, a);
    OuterJoinFind(left, right, b);
    OuterJoinFind(left, right, c);
    assert TryGet(right, a) == 0 && TryGet(left, c) == 0;
  }

  /** Incrementing the same key `n` times from an empty counter leaves exactly `n`. */
  lemma AppendCountRepeated(k: string, n: nat)
    ensures TryGet(AppendAll([], Repeat(k, n)), k) == n
  {
    AppendAllCounts([], Repeat(k, n));
    RepeatOccurrences(k, n, k);
  }
}

=== FILE: strings.dfy ===
/**
 * The string primitives of the .NET base library that the class-name extractors lean on:
 * character splitting with empty entries removed, trimming, prefix tests, ASCII lowering,
 * and ordinal (code-point) ordering. Strings are `seq<char>`.
 */
module Strings {

  /** Number of occurrences of `x` in `s`. */
  function Occurrences<T(==)>(s: seq<T>, x: T): (n: nat)
    ensures n <= |s|
    ensures n == 0 <==> x !in s
  {
    if |s| == 0 then 0 else (if s[0] == x then 1 else 0) + Occurrences(s[1..], x)
  }

  lemma {:induction false} OccurrencesAppend<T>(a: seq<T>, b: seq<T>, x: T)
    ensures Occurrences(a + b, x) == Occurrences(a, x) + Occurrences(b, x)
  {
    if |a| == 0 {
      assert a + b == b;
    } else {
      assert (a + b)[1..] == a[1..] + b;
      OccurrencesAppend(a[1..], b, x);
    }
  }

  /** Concatenation of a sequence of strings, with nothing in between. */
  function Concat(ts: seq<string>): string
  {
    if |ts| == 0 then [] else ts[0] + Concat(ts[1..])
  }

  lemma {:induction false} ConcatAppend(a: seq<string>, b: seq<string>)
    ensures Concat(a + b) == Concat(a) + Concat(b)
  {
    if |a| == 0 {
      assert a + b == b;
    } else {
      assert (a + b)[1..] == a[1..] + b;
      ConcatAppend(a[1..], b);
    }
  }

  /** `s` with every occurrence of `c` deleted. */
  function Remove(s: string, c: char): (r: string)
    ensures c !in r
    ensures |r| <= |s|
    ensures forall x :: x in r ==> x in s
  {
    if |s| == 0 then [] else (if s[0] == c then [] else [s[0]]) + Remove(s[1..], c)
  }

  lemma {:induction false} RemoveAppend(a: string, b: string, c: char)
    ensures Remove(a + b, c) == Remove(a, c) + Remove(b, c)
  {
    if |a| == 0 {
      assert a + b == b;
    } else {
      assert (a + b)[1..] == a[1..] + b;
      RemoveAppend(a[1..], b, c);
    }
  }

  /** Index of the first `c` in `s`, or `|s|` when there is none. */
  function IndexOf(s: string, c: char): (i: nat)
    ensures i <= |s|
    ensures c !in s[..i]
    ensures i < |s| ==> s[i] == c
    ensures i == |s| <==> c !in s
  {
    if |s| == 0 then 0
    else if s[0] == c then 0
    else 1 + IndexOf(s[1..], c)
  }

  /** `s.Split(sep, StringSplitOptions.RemoveEmptyEntries)`: the maximal non-empty runs of `s` free of `sep`. */
  function Split(s: string, sep: char): (r: seq<string>)
    ensures forall i :: 0 <= i < |r| ==> |r[i]| > 0 && sep !in r[i]
    decreases |s|
  {
    if |s| == 0 then []
    else
      var i := IndexOf(s, sep);
      (if i == 0 then [] else [s[..i]]) + (if i == |s| then [] else Split(s[i + 1..], sep))
  }

  lemma {:induction false} InConcat(ts: seq<string>, j: int, c: char)
    requires 0 <= j < |ts| && c in ts[j]
    ensures c in Concat(ts)
  {
    if j > 0 { InConcat(ts[1..], j - 1, c); }
  }

  /** A string splits at its first separator. */
  lemma SplitAt(a: string, sep: char, b: string)
    requires sep !in a
    ensures Split(a + [sep] + b, sep) == (if |a| == 0 then [] else [a]) + Split(b, sep)
  {
    var s := a + [sep] + b;
    assert s == a + ([sep] + b);
    IndexOfAfterFree(a, [sep] + b, sep);
    assert s[..|a|] == a;
    assert s[|a| + 1..] == b;
  }

  /** A non-empty string without the separator is a single piece. */
  lemma SplitWhole(s: string, sep: char)
    requires |s| > 0 && sep !in s
    ensures Split(s, sep) == [s]
  {
    assert s[..|s|] == s;
  }

  /** Every character of every piece comes from the input. */
  lemma SplitChars(s: string, sep: char)
    ensures forall i, c :: 0 <= i < |Split(s, sep)| && c in Split(s, sep)[i] ==> c in s
  {
    SplitKeepsEverythingButSeparators(s, sep);
    forall i, c | 0 <= i < |Split(s, sep)| && c in Split(s, sep)[i] ensures c in s {
      InConcat(Split(s, sep), i, c);
    }
  }

  /** The pieces joined back together with one separator between neighbours. */
  function Join(ts: seq<string>, sep: char): string
  {
    if |ts| == 0 then []
    else if |ts| == 1 then ts[0]
    else ts[0] + [sep] + Join(ts[1..], sep)
  }

  /** Splitting loses exactly the separators: the pieces, concatenated, are the input without them. */
  lemma {:induction false} SplitKeepsEverythingButSeparators(s: string, sep: char)
    ensures Concat(Split(s, sep)) == Remove(s, sep)
    decreases |s|
  {
    if sep !in s {
      RemoveFree(s, sep);
      if |s| > 0 {
        SplitWhole(s, sep);
        ConcatOne(s);
      }
    } else {
      var i := IndexOf(s, sep);
      var pre, rest := s[..i], s[i + 1..];
      var head: seq<string> := if i == 0 then [] else [pre];
      assert s == pre + [sep] + rest;
      SplitAt(pre, sep, rest);
      RemoveAt(pre, sep, rest);
      ConcatAppend(head, Split(rest, sep));
      if i > 0 { ConcatOne(pre); }
      SplitKeepsEverythingButSeparators(rest, sep);
    }
  }

  lemma ConcatOne(s: string)
    ensures Concat([s]) == s
  {
    assert [s][1..] == [];
  }

  /** Removing `c` from `pre + [c] + rest`, where `pre` has no `c`, keeps `pre` and drops that `c`. */
  lemma RemoveAt(pre: string, c: char, rest: string)
    requires c !in pre
    ensures Remove(pre + [c] + rest, c) == pre + Remove(rest, c)
  {
    var a := pre + [c];
    RemoveAppend(a, rest, c);
    RemoveAppend(pre, [c], c);
    RemoveFree(pre, c);
    RemoveSelf(c);
    assert Remove(a, c) == pre + [];
    assert pre + [] == pre;
  }

  lemma RemoveSelf(c: char)
    ensures Remove([c], c) == []
  {
    assert [c][1..] == [];
  }

  lemma {:induction false} RemoveFree(s: string, c: char)
    requires c !in s
    ensures Remove(s, c) == s
  {
    if |s| != 0 {
      assert c !in s[1..];
      RemoveFree(s[1..], c);
    }
  }

  /** Round trip: joining non-empty, separator-free pieces and splitting again gives the pieces back. */
  lemma {:induction false} SplitJoin(ts: seq<string>, sep: char)
    requires forall i :: 0 <= i < |ts| ==> |ts[i]| > 0 && sep !in ts[i]
    ensures Split(Join(ts, sep), sep) == ts
  {
    if |ts| == 1 {
      SplitWhole(ts[0], sep);
    } else if |ts| > 1 {
      var h := ts[0];
      SplitAt(h, sep, Join(ts[1..], sep));
      SplitJoin(ts[1..], sep);
      assert ts == [h] + ts[1..];
    }
  }

  lemma {:induction false} IndexOfAfterFree(a: string, b: string, c: char)
    requires c !in a && |b| > 0 && b[0] == c
    ensures IndexOf(a + b, c) == |a|
  {
    if |a| != 0 {
      assert (a + b)[1..] == a[1..] + b;
      IndexOfAfterFree(a[1..], b, c);
    }
  }

  function StartsWith(s: string, prefix: string): bool
  {
    |prefix| <= |s| && s[..|prefix|] == prefix
  }

  /**
   * `char.IsWhiteSpace`, which is also the character class `\s` of .NET regular expressions
   * and the set `string.Trim()` removes.
   */
  predicate IsWhiteSpace(c: char)
  {
    var n := c as int;
    (0x09 <= n <= 0x0D) || n == 0x20 || n == 0x85 || n == 0xA0 || n == 0x1680
    || (0x2000 <= n <= 0x200A) || n == 0x2028 || n == 0x2029 || n == 0x202F
    || n == 0x205F || n == 0x3000
  }

  /** Length of the longest prefix of `s` whose characters all satisfy `IsWhiteSpace`. */
  function WhiteSpacePrefix(s: string): (n: nat)
    ensures n <= |s|
    ensures forall i :: 0 <= i < n ==> IsWhiteSpace(s[i])
    ensures n < |s| ==> !IsWhiteSpace(s[n])
  {
    if |s| == 0 || !IsWhiteSpace(s[0]) then 0 else 1 + WhiteSpacePrefix(s[1..])
  }

  /** Length of the longest suffix of `s` whose characters all satisfy `IsWhiteSpace`. */
  function WhiteSpaceSuffix(s: string): (n: nat)
    ensures n <= |s|
    ensures forall i :: |s| - n <= i < |s| ==> IsWhiteSpace(s[i])
    ensures n < |s| ==> !IsWhiteSpace(s[|s| - n - 1])
  {
    if |s| == 0 || !IsWhiteSpace(s[|s| - 1]) then 0 else 1 + WhiteSpaceSuffix(s[..|s| - 1])
  }

  /**
   * `string.Trim()`: leading and trailing white space removed. The result is the stretch of
   * `s` after its leading white run, up to a tail that is all white space.
   */
  function Trim(s: string): (r: string)
    ensures |r| <= |s|
    ensures |r| > 0 ==> !IsWhiteSpace(r[0]) && !IsWhiteSpace(r[|r| - 1])
    ensures forall c :: c in r ==> c in s
    ensures |s| > 0 && !IsWhiteSpace(s[0]) && !IsWhiteSpace(s[|s| - 1]) ==> r == s
    ensures WhiteSpacePrefix(s) + |r| <= |s|
    ensures r == s[WhiteSpacePrefix(s)..WhiteSpacePrefix(s) + |r|]
    ensures forall i :: WhiteSpacePrefix(s) + |r| <= i < |s| ==> IsWhiteSpace(s[i])
  {
    var a := WhiteSpacePrefix(s);
    if a == |s| then [] else
      var b := WhiteSpaceSuffix(s);
      assert b < |s|;
      assert !IsWhiteSpace(s[|s| - b - 1]);
      assert a <= |s| - b - 1;
      s[a..|s| - b]
  }

  /** `string.TrimEnd(c)`: every trailing `c` removed. */
  function TrimEnd(s: string, c: char): (r: string)
    ensures |r| <= |s| && r == s[..|r|]
    ensures |r| == 0 || r[|r| - 1] != c
    ensures forall i :: |r| <= i < |s| ==> s[i] == c
  {
    if |s| == 0 || s[|s| - 1] != c then s else TrimEnd(s[..|s| - 1], c)
  }

  /** Invariant-culture lowering of the ASCII letters; every other character is kept. */
  function ToLowerAscii(s: string): (r: string)
    ensures |r| == |s|
    ensures forall i :: 0 <= i < |s| ==> if 'A' <= s[i] <= 'Z' then r[i] as int == s[i] as int + 32 else r[i] == s[i]
  {
    if |s| == 0 then []
    else [if 'A' <= s[0] <= 'Z' then (s[0] as int + 32) as char else s[0]] + ToLowerAscii(s[1..])
  }

  /** Ordinal order: lexicographic on characters, a proper prefix before its extensions. */
  predicate Less(a: string, b: string)
  {
    if |a| == 0 then |b| > 0
    else if |b| == 0 then false
    else if a[0] != b[0] then a[0] < b[0]
    else Less(a[1..], b[1..])
  }

  lemma {:induction false} LessIrreflexive(a: string)
    ensures !Less(a, a)
  {
    if |a| > 0 { LessIrreflexive(a[1..]); }
  }

  lemma {:induction false} LessTransitive(a: string, b: string, c: string)
    requires Less(a, b) && Less(b, c)
    ensures Less(a, c)
  {
    if |a| > 0 && |b| > 0 && |c| > 0 && a[0] == b[0] && b[0] == c[0] {
      LessTransitive(a[1..], b[1..], c[1..]);
    }
  }

  /** Of two different strings exactly one comes first. */
  lemma {:induction false} LessTotal(a: string, b: string)
    requires a != b
    ensures Less(a, b) || Less(b, a)
    ensures !(Less(a, b) && Less(b, a))
  {
    if Less(a, b) && Less(b, a) {
      LessTransitive(a, b, a);
      LessIrreflexive(a);
    }
    if |a| > 0 && |b| > 0 && a[0] == b[0] {
      assert a == [a[0]] + a[1..] && b == [b[0]] + b[1..];
      LessTotal(a[1..], b[1..]);
    }
  }
}

=== FILE: wrappers.dfy ===
/** The optional-value datatype used wherever the C# code answers "found or not found". */
module Wrappers {

  datatype Option<+T> = None | Some(value: T)
}
